=== FILE: README.md ===
# kapow directive engine in Dafny

This project models the core of `kapow`, a tool that reads Markdown
documents line by line and writes them to standard output, carrying out
the directives it finds along the way:

- `!run:<command>` runs a shell command; a trailing `\` continues the
  command on the next line.
- `!inc:<path>` prints another file verbatim.
- The spans `` `!elapsed` ``, `` `!now…` `` and `` `!today…` `` are replaced
  by the time since the start of the run, the current timestamp and the
  current date.
- Escaped spans (`` `\!now` `` and the like) are printed literally.
- A trailing `\` or `\\` on plain text joins a line to the next one or
  produces a hard break.

Before each line is dispatched, a fence tracker remembers which Markdown
code fence is open. A failing command then echoes that fence to close the
code block, prints an error block and stops the run with status 104.

Everything sits in `src/main.rs`. The Dafny modules follow its functions:

| module | file | models |
|---|---|---|
| `Text` | text.dfy | `contains`, `str::replace`, `split_once`, `collect::<String>()` |
| `Decimal` | decimal.dfy | decimal rendering of integers (`{n}`) and its inverse |
| `Fence` | fence.dfy | `FENCE_RE` as a scanner, and `update_fence` |
| `Duration` | duration.dfy | `human_duration` |
| `Spans` | spans.dfy | the span branches of `process_line` and the `NOW`/`TODAY` regexes as scanners |
| `Dispatch` | dispatch.dfy | `process_line` as a pure step `(queue, line) -> (queue', actions)` |
| `Tokens` | tokens.dfy | what each span form does, escapes, malformed spans, re-dispatch |
| `Runner` | runner.dfy | the failure branch of `run` |
| `Pager` | pager.dfy | the pager command string built by `page` |
| `Driver` | driver.dfy | `main`'s loop over inputs and lines, with actions carried out |
| `Runs` | runs.dfy | whole-run properties: multi-line commands, exits, `#!` lines |

Modelling choices:

- **Time.** The clock is a `Clock` value. It holds the elapsed whole
  seconds, the five strings `main` computes up front, and two
  uninterpreted functions: `formatIn(zone, pattern)` and
  `defaultIn(zone)`. Time-zone lookup happens inside those two functions.
- **The substitution loop.** `Dispatch` recurses on a `fuel` count of span
  passes. Running out of fuel gives `Hang`, which stands for the loop
  running forever. The model never claims the loop terminates.
  `Tokens.MalformedElapsedHangs` and `Tokens.UnclosedNowHangs` prove that,
  for two malformed spans, no amount of fuel is enough.
- **The outside world.** Files are a map from path to lines. A command's
  exit status is a function of its text. Output is a list of `Emit` and
  `Exec` events, in the order the program makes the calls.
- **What the code does and does not do.**
  - `!inc:` prints the included file's lines verbatim (`src/main.rs:229-232`).
    Those lines are not dispatched again, and the directory is not changed
    for them.
  - The `#!` skip applies only to the first line of a file named on the
    command line, not to standard input (`src/main.rs:110-142`).
  - The code has no `!start:`/`!stop:` flag blocks, no blank-line
    collapsing and no image-path rewriting, so none of these are modelled.
  - Rust's `\s` in `FENCE_RE` is the full Unicode White_Space set, not just
    ASCII whitespace.

## Model

| member | source | states |
|---|---|---|
| Fence.FenceMatch | src/main.rs:76 | `FENCE_RE` written as a scanner. `Fence.FenceMatchSpec` characterises it against the regex reading. |
| Fence.UpdateFence | src/main.rs:169-180 | `update_fence`. Its four cases are `Fence.UpdateFenceCases`; `Fence.UpdatePreservesValid` shows it keeps a complete marker. |
| Fence.FenceMatchSpec | src/main.rs:76 | The scanner finds a match exactly when the line starts with whitespace followed by three or more copies of one fence character. The match is that whole prefix, with the run of fence characters taken in full. |
| Fence.MatchIsFence | src/main.rs:76 | A fence match, read as a line of its own, matches itself whole. |
| Fence.InfoStringIgnored | src/main.rs:76 | A fence line with an info string (```` ```rust ````) opens the bare marker ```` ``` ````. The bare marker then closes it. |
| Fence.UpdateFenceCases | src/main.rs:169-180 | A non-fence line leaves the state alone. With no fence open, a fence line opens its marker. Only the identical marker closes it. A different marker leaves the open fence unchanged. |
| Fence.UpdatePreservesValid | src/main.rs:169-180 | The remembered fence is always a complete fence marker. |
| Fence.OpenThenClose | src/main.rs:169-180 | ```` ``` ```` opens a fence, and the same line closes it. |
| Fence.OtherMarkersKeepFence | src/main.rs:169-180 | While ```` ``` ```` is open, `~~~`, ```` ```` ```` and an indented ```` ``` ```` do not close it. |
| Fence.EchoClosesFence | src/main.rs:340-342 | The echoed open fence, read as a line, closes that fence. This holds on the terminal only when the output before it ended with a newline. |
| Decimal.NatToString | src/main.rs:364 | The decimal rendering of a natural number is a non-empty string of digits, with no leading zero unless the number is 0. |
| Decimal.NatRoundTrip | src/main.rs:364 | The decimal rendering of a natural number reads back to the same number. |
| Decimal.IntToString | src/main.rs:364 | The `{n}` rendering of an `i64`: a non-empty string with a leading `-` exactly for a negative number, then digits. `Decimal.IntRoundTrip` shows it reads back to the number. |
| Decimal.IntRoundTrip | src/main.rs:364 | The decimal rendering of any integer, including a negative one, reads back to the same integer. |
| Duration.HumanDuration | src/main.rs:361-381 | `human_duration`. `Duration.HumanDurationFields` reads its output back to the independent field list `FieldsOf`. |
| Duration.Total | src/main.rs:371-375 | chrono's `num_days`, `num_hours`, `num_minutes` and `num_seconds`: the whole number of units, truncated toward zero. For a non-negative duration, `t` units fit and `t + 1` do not. For a negative one, the same holds mirrored. |
| Duration.Piece | src/main.rs:362-370 | The helper `f`. `Duration.PieceRoundTrip` characterises it. |
| Duration.PieceRoundTrip | src/main.rs:362-370 | `f` yields nothing exactly for a zero day, hour or minute count. What it yields reads back as that count and unit, which includes `0s` for zero seconds. |
| Duration.JoinPieces | src/main.rs:376-380 | The `filter_map`, `collect` and `join("")` chain. `Duration.JoinIsConcat` relates it to the two steps. |
| Duration.JoinIsConcat | src/main.rs:376-380 | The walk equals keeping the present pieces (`filter_map`) in order and concatenating them with no separator. |
| Duration.ParseRender | src/main.rs:362-370 | A list of count/unit fields rendered with `{n}{abbr}` and joined with no separator can be read back into the same list. |
| Duration.HumanDurationFields | src/main.rs:361-381 | Read back, the output is exactly the field list `FieldsOf`. Days, hours and minutes appear in that order, each only when its total count is non-zero. Each count is the total in its own unit, not a remainder. The seconds field is always present, last, and carries the full number of seconds. |
| Duration.ZeroDuration | src/main.rs:365-366 | A zero duration prints `0s`. |
| Duration.UnderAMinute | src/main.rs:361-381 | From 0 to 59 seconds, only `<n>s` is printed. |
| Duration.TotalCountsExample | src/main.rs:371-376 | 3661 seconds print as `1h61m3661s`. |
| Duration.HumanDurationAlphabet | src/main.rs:361-381 | The output contains only signs, digits and the letters d, h, m and s. |
| Text.Replace | src/main.rs:240-279 | Rust's `str::replace`. `Text.ReplaceAbsent` shows it leaves text without the pattern alone. `Text.ReplaceSkip` and `Text.ReplaceFirst` show it replaces the leftmost occurrence and resumes after it, for any text in front in which no occurrence begins. That text may hold any characters of the pattern. |
| Text.ReplaceSkip | src/main.rs:240-279 | A prefix in which no occurrence of the pattern begins is copied unchanged, and the rest is replaced on its own. |
| Text.ReplaceFirst | src/main.rs:240-279 | When no occurrence begins before a given one, that occurrence is the first replaced, and replacement resumes right after it. |
| Text.Concat | src/main.rs:209 | `collect::<String>()` of the queued fragments. `Text.ConcatSplit` shows it distributes over appending lists, and `Text.ConcatAppend` shows adding one more fragment appends its text. |
| Text.ConcatSplit | src/main.rs:209 | Collecting `a + b` gives the collected `a` followed by the collected `b`. |
| Text.SplitOnce | src/main.rs:252 | Rust's `split_once`: the input is the part before the first separator, the separator and the rest, and the part before holds no separator. |
| Spans.Capture | src/main.rs:250-257 | The replacement closure of both regexes. `Spans.CaptureWithPattern` and `Spans.CaptureZoneOnly` state its two cases. |
| Spans.ScanTokens | src/main.rs:249-272 | `NOW.replace_all` and `TODAY.replace_all`. `Spans.ScanToken` covers a match, `Spans.ScanPlainPrefix` any prefix in which no match starts (such as inline code, `Spans.ScanPastInlineCode`), and `Spans.ScanNoBacktick` and `Spans.UnclosedHeadUnchanged` cover text with no match. |
| Spans.ElapsedPass | src/main.rs:240-242 | The `!elapsed` branch. `Tokens.ElapsedToken` shows what it prints, and `Tokens.MalformedElapsedHangs` shows an unclosed span is never rewritten. |
| Spans.NowPass | src/main.rs:243-258 | The `!now` branch: the three literal forms, then the regex. `Tokens.NowRegexOnly` shows that only the regex applies when the capture is neither `local` nor `x`. |
| Spans.TodayPass | src/main.rs:259-272 | The `!today` branch: the two literal forms, then the regex. `Tokens.TodayRegexOnly` shows that only the regex applies when the capture is not `local`. |
| Spans.SpanPass | src/main.rs:239-273 | One iteration of the span branches, selected by the first `contains` test that holds. `Spans.InertFixed` shows inert text is a fixed point. |
| Spans.Unescape | src/main.rs:276-279 | The un-escaping of the plain-text branch. `Spans.UnescapeHead` shows it removes one backslash from an escaped head anywhere in a line, behind text with no backslash, and un-escapes the rest separately. `Spans.UnescapeNoBackslash` shows text without a backslash is left alone. |
| Spans.UnescapeHead | src/main.rs:276-279 | For `elapsed`, `now` and `today`: in `pre` + `` `\!name `` + `post`, with no backslash in `pre`, the head becomes `` `!name ``, `pre` is kept, and `post` is un-escaped on its own. Later heads in `post` are un-escaped too. |
| Spans.UnescapeNoBackslash | src/main.rs:276-279 | Un-escaping leaves text without a backslash unchanged. |
| Spans.SplitAtFirstColon | src/main.rs:252 | `split_once(':')` splits at the first colon: the zone contains no colon, and the pattern keeps any later ones. |
| Spans.CaptureWithPattern | src/main.rs:251-253 | A capture `zone:pattern` is formatted in that zone with that pattern, whether the span is `now` or `today`. |
| Spans.CaptureZoneOnly | src/main.rs:254-271 | A capture without a colon names a zone. `now` uses the default rendering; `today` uses `%Y-%m-%d`. |
| Spans.ScanNoBacktick | src/main.rs:249-258 | The regex pass leaves text without a backtick unchanged. |
| Spans.ScanToken | src/main.rs:249-258 | A complete span (head, capture without a backtick, closing backtick) is replaced by the rendering of its capture, and scanning resumes after the closing backtick. |
| Spans.ScanPlainPrefix | src/main.rs:249-258 | A prefix in which no match starts is copied unchanged, and the rest is scanned on its own. The prefix may contain backticks. |
| Spans.ScanPastInlineCode | src/main.rs:249-258 | Inline code such as `` `date` `` before the spans is copied unchanged, unless `!` directly follows one of its backticks. The rest of the line is scanned on its own. |
| Spans.UnclosedHeadUnchanged | src/main.rs:71 | A span head with no closing backtick is not a regex match, and the line is left as it is. |
| Spans.InertFixed | src/main.rs:240-279 | Text without a backtick, backslash or `!` contains no span head. Every pass and the un-escaping leave it unchanged. |
| Spans.ElapsedInert | src/main.rs:242 | The elapsed text never contains a backtick, backslash or `!`, so substituting it cannot create a new span. |
| Dispatch.Dispatch | src/main.rs:199-289 | With an empty queue, a line yields at most one action. A pending command yields no action. A `Run` comes only with the queue drained. The queue holds at most one fragment. |
| Dispatch.Step | src/main.rs:201-216 | With a command pending, the result is never `Hang` and only `Run` actions occur. The queue either empties, or keeps its fragments and gains this line without its trailing backslash. |
| Dispatch.PendingSwallows | src/main.rs:201-216 | While a command is pending, a line ending in `\` is queued without its backslash. Any other line completes the command, which is run as the concatenation of the queue and the line. Directives and spans in such lines are not interpreted. |
| Dispatch.RunLine | src/main.rs:217-224 | `!run:c` runs `c` at once, unless `c` ends in `\`. In that case `c` without the backslash becomes the pending command. |
| Dispatch.IncludeLine | src/main.rs:225-238 | `!inc:p` asks for file `p` to be included. |
| Dispatch.InertLinePrinted | src/main.rs:275-287 | A line without backtick, backslash or `!` is printed as it is, followed by a newline. |
| Dispatch.PassToInert | src/main.rs:239-287 | A line whose span pass yields inert text is printed as that text after one pass. |
| Dispatch.Fallback | src/main.rs:280-286 | The plain-text branch. `Dispatch.FallbackCases` states its three cases, and `Dispatch.FallbackRestores` shows the printed text determines the line. |
| Dispatch.NoDirectiveFallsThrough | src/main.rs:274-287 | A line without a directive prefix or span head is un-escaped and printed through the fallback, whatever the fuel. |
| Dispatch.FallbackCases | src/main.rs:280-286 | A trailing `\\` prints one backslash and a newline. A single trailing `\` prints the text without it and without a newline. Any other text is printed with a newline. |
| Dispatch.FallbackRestores | src/main.rs:280-286 | The fallback loses nothing: the un-escaped line can be recovered exactly from what is printed. |
| Dispatch.FuelMonotone | src/main.rs:199-289 | Once a line's loop finishes, more fuel gives the same result. The outcome does not depend on the bound. |
| Tokens.NowToken | src/main.rs:243-248 | `` `!now` `` prints the RFC 3339 timestamp. |
| Tokens.NowLocalToken | src/main.rs:243-248 | `` `!now:local` `` prints the precomputed local rendering `now_local`. |
| Tokens.NowXToken | src/main.rs:243-248 | `` `!now:x` `` prints the `x` format. |
| Tokens.TodayToken | src/main.rs:259-263 | `` `!today` `` prints the UTC date. |
| Tokens.TodayLocalToken | src/main.rs:259-263 | `` `!today:local` `` prints the local date. |
| Tokens.ElapsedToken | src/main.rs:240-242 | `` `!elapsed` `` prints `human_duration` of the elapsed seconds. |
| Tokens.NowPatternPassResult | src/main.rs:249-258 | A line that is exactly `` `!now:zone:pattern` `` becomes the timestamp formatted in that zone with that pattern, for any zone without a colon, the empty zone and `local` included. |
| Tokens.NowZoneOnlyPassResult | src/main.rs:249-256 | A line that is exactly `` `!now:zone` `` becomes the default rendering in that zone, for any zone without a colon other than `local` and `x` (those two are the literal forms). |
| Tokens.TodayPatternPassResult | src/main.rs:264-269 | A line that is exactly `` `!today:zone:pattern` `` becomes the timestamp formatted in that zone with that pattern, for any zone without a colon. |
| Tokens.TodayZoneOnlyPassResult | src/main.rs:264-272 | A line that is exactly `` `!today:zone` `` becomes the date formatted in that zone with `%Y-%m-%d`, for any zone without a colon other than `local`. |
| Tokens.NowPatternInText | src/main.rs:243-258 | `` `!now:zone:pattern` `` anywhere in a line whose other text is inert, as in ``Updated `!now:UTC:%F`.``: the `now` branch is taken, the literal forms do not apply, and the token alone is replaced by the timestamp formatted in that zone with that pattern. This holds for any zone without a colon or backtick, and any pattern without a backtick. |
| Tokens.NowZoneOnlyInText | src/main.rs:243-258 | `` `!now:zone` `` anywhere in a line whose other text is inert: the token alone is replaced by the default rendering in that zone. This holds for any zone without a colon other than `local` and `x`. |
| Tokens.TodayPatternInText | src/main.rs:259-272 | `` `!today:zone:pattern` `` anywhere in a line whose other text is inert: the `today` branch is taken, and the token alone is replaced by the timestamp formatted in that zone with that pattern. |
| Tokens.TodayZoneOnlyInText | src/main.rs:259-272 | `` `!today:zone` `` anywhere in a line whose other text is inert: the token alone is replaced by the date in that zone with `%Y-%m-%d`. This holds for any zone without a colon other than `local`. |
| Tokens.AtTokenOnly | src/main.rs:239-243 | In a line whose only backticks are those of one token, a `contains` test for a `` `!``-led pattern sees only the token's start. |
| Tokens.NowZonePatternToken | src/main.rs:249-258 | `` `!now:UTC:%Y` `` prints the timestamp formatted in UTC with `%Y`. |
| Tokens.NowZoneToken | src/main.rs:254-256 | `` `!now:UTC` `` prints the default rendering in UTC. |
| Tokens.TodayZoneToken | src/main.rs:264-272 | `` `!today:UTC` `` prints the date in UTC with `%Y-%m-%d`. |
| Tokens.EscapedSpanPrinted | src/main.rs:274-287 | Any escaped span `` `\!name t` `` (name `elapsed`, `now` or `today`, `t` without a backtick) is never substituted. The backslash after the opening backtick is removed once and the rest is printed as it is, with a newline. |
| Tokens.EscapedNow | src/main.rs:276-279 | `` `\!now` `` is printed literally as `` `!now` ``, with one backslash removed. |
| Tokens.EscapedElapsed | src/main.rs:276-279 | `` `\!elapsed` `` is printed literally as `` `!elapsed` ``. |
| Tokens.EscapedToday | src/main.rs:276-279 | `` `\!today:UTC` `` is printed literally as `` `!today:UTC` ``. |
| Tokens.FixedPointHangs | src/main.rs:199-289 | A line that reaches the span branches and that a span pass leaves unchanged never finishes, whatever the fuel. |
| Tokens.MalformedElapsedHangs | src/main.rs:240-242 | `` `!elapsedX `` never finishes: the `contains` test stays true and the replacement never applies. |
| Tokens.UnclosedNowGeneral | src/main.rs:243-258 | An unclosed `` `!now:zone ``, for any zone, is not rewritten by any of the four `now` replacements. |
| Tokens.UnclosedNowHangs | src/main.rs:243-258 | `` `!now:UTC `` never finishes. |
| Tokens.PatternRunsCommand | src/main.rs:199-258 | For any zone and pattern, a `` `!now:zone:pattern` `` line whose rendering is `!run:c` runs `c` after one pass: the directive prefixes are checked again on the substituted text. |
| Tokens.SubstitutionIsDispatchedAgain | src/main.rs:199-258 | After a substitution the loop checks the directive prefixes again. A timestamp pattern that renders as `!run:date` runs `date`. |
| Runner.DebugCode | src/main.rs:343 | The `{:?}` rendering of an exit status is `None` exactly for a missing status; otherwise it is `Some(` … `)`. |
| Runner.DebugCodeRoundTrip | src/main.rs:343 | The `{:?}` rendering of an exit status (`Some(n)` or `None`) can be read back to that status. |
| Runner.ErrorMessage | src/main.rs:343 | The failure text. `Runner.ErrorMessageRoundTrip` shows it determines the command and the status. |
| Runner.ErrorMessageRoundTrip | src/main.rs:343 | The error block names the failing command and its status exactly, as long as the command contains no backtick. |
| Runner.RunFailure | src/main.rs:339-345 | The run stops exactly when failures are not ignored and the status is not `Some(0)`. A missing status counts as a failure. It stops with status 104. The open fence is printed first when there is one, and the error block is printed last. |
| Runner.FailureClosesFence | src/main.rs:340-342 | The first line printed on failure closes the fence that was open, provided the output before it ended with a newline. After a `\`-joined line the fence is glued to that text and closes nothing. |
| Pager.PagerCommand | src/main.rs:386-394 | Every pager string starts with `bat -p`. |
| Pager.PagerRoundTrip | src/main.rs:386-394 | The pager string `bat -p[P][l <lang>]` can be read back. Paging is off (`P`) exactly when `readme == no_page`. A language is passed exactly when one is given and `-H` is absent. |
| Pager.MainPaging | src/main.rs:84-97 | For a document, paging is off unless `-p` is given. For the readme, paging is on unless `-P` is given. |
| Driver.Act | src/main.rs:217-238 | A `Print` writes its text. An include writes the file's lines, or exits with 102 when the file cannot be opened. A `Run` executes the command and then continues, or exits with 104, as decided by the failure rule. |
| Driver.Line | src/main.rs:112-129 | A line is seen by the fence tracker before it is processed. It can only exit with 102 or 104. A line that continues a pending command never hangs. |
| Driver.Lines | src/main.rs:112-130 | After the lines of an input, the fence equals the tracker run over those lines on its own. Lines can only exit with 102 or 104. |
| Driver.Inputs | src/main.rs:109-166 | A run over several inputs can only exit with 101, 102 or 104. |
| Driver.LinesAppend | src/main.rs:106-130 | Processing `a + b` means processing `a`, then `b` from the state `a` leaves. Once a line halts, no later line is read. |
| Driver.InputsAppend | src/main.rs:106-166 | The same holds for a sequence of inputs: state is carried across inputs, and a halt ends the run. |
| Driver.StdinSplit | src/main.rs:106-131 | Splitting standard input into two inputs changes nothing. The open fence and the pending command survive the boundary. |
| Driver.LinesKeepFenceValid | src/main.rs:114 | The tracker only ever holds a complete fence marker. |
| Runs.PendingOnly | src/main.rs:201-207 | While a command is pending, continuation lines print nothing and run nothing. Each line adds itself, without its backslash, to the queue. |
| Runs.PendingCompletes | src/main.rs:201-215 | The first line without a trailing backslash runs the concatenation of the queue, the continuation lines and that line, once. The queue is then empty. |
| Runs.RunAccumulates | src/main.rs:201-224 | `!run:f\`, continuation lines, then a plain line together run one command: `f`, the continuation lines without their backslashes, and the last line, joined with nothing in between. |
| Runs.TwoLineCommand | src/main.rs:209 | `!run:a\` followed by `b` executes `a + b`. |
| Runs.UnfinishedCommandNeverRuns | src/main.rs:107-166 | A command still pending when the input ends is never executed. The run finishes with nothing printed and the fragments still queued. |
| Runs.FailureStopsRun | src/main.rs:339-345 | A failing command's execution is followed by the open fence, if any, and then the error block, and the run exits with 104. No later line is read. |
| Runs.IncludeOutcome | src/main.rs:225-238 | An include that cannot be opened exits with 102 and prints nothing. One that opens prints its lines first. |
| Runs.MissingInputStopsRun | src/main.rs:162-164 | An input file that cannot be opened exits with 101. The output of earlier inputs is kept. |
| Driver.Kapow | src/main.rs:106-166 | `main`'s loop from no open fence and no pending command. With no inputs, the run finishes with nothing printed. A first input naming a file that cannot be opened exits with 101 before anything is printed. A run can only exit with 101, 102 or 104. |
| Driver.FileBody | src/main.rs:133-142 | The lines of a file as processed are a suffix of its lines, at most one shorter. A line is dropped exactly when the file's first line starts with `#!`. |
| Driver.Source | src/main.rs:106-166 | One input: it exits with 101 exactly when it names a file that cannot be opened; otherwise it can exit only with 102 or 104. |
| Runs.ShebangSkippedInFiles | src/main.rs:138-142 | A file whose first line starts with `#!` is processed without that line. |
| Runs.PlainFileWhole | src/main.rs:138-142 | A file whose first line does not start with `#!` is processed whole. |
| Runs.ShebangLine | src/main.rs:275-287 | A `#!` line with no backtick, backslash or `!` after the marker is printed as it is, with a newline. |
| Runs.ShebangPrintedOnStdin | src/main.rs:110-130 | On standard input the `#!` first line is not skipped: it is the first thing printed. |
| Runs.InputsKeepFenceValid | src/main.rs:106-166 | At the end of any run that finishes, the remembered fence is a complete fence marker, or none. |

## Left out

- Command output and wrapping (`src/main.rs:295-338`). Spawning `sh -c`, capturing output and `termwrap` are not modelled. An executed command is an `Exec` event, and its status comes from the `status` function of the environment.
- Working directory. `cd` and the process-wide working directory, with exit 103, are not modelled. Paths, for inputs and for `!inc:`, are looked up literally in the `files` map, so resolving them relative to the current file's directory is not part of this model.
- Error messages on standard error before exits 101, 102, 103 and 105 are not modelled, since they are I/O. Read errors after a successful open are not modelled either. Examples are a directory, an I/O error part-way through, or invalid UTF-8. In an input file they make `line.unwrap()` (`src/main.rs:139`) panic, and in an included file `i.unwrap()` (`src/main.rs:231`) panics. Either way the process ends with status 101, after the lines read so far have been printed. The model treats every path in `files` as fully readable, so it never produces this exit.
- `-L` (`src/main.rs:89-96`), the readme text, and the pager process itself (`Pager::with_pager(..).setup()`, `which("bat")`) are not modelled. Only the pager string is.
- `clap` parsing (`src/main.rs:25-67`) is not modelled. The model takes the parsed inputs as a sequence of `Input` values, where stdin is given as its lines.
- chrono and dtg_lib formatting, time-zone lookup and `Utc::now()` appear only through the `Clock` value. Calendar arithmetic is not modelled.
- Spans.ElapsedPass: the elapsed time is one whole-second value per run. The source samples `Utc::now()` again on each pass, so two `` `!elapsed` `` spans on different lines can show different values; the model gives them the same one.
- Output order. Standard output is line-buffered, and a command run with the default `wrap == 0` (`src/main.rs:309-317`) writes straight to the same descriptor. Text printed without a newline (`src/main.rs:283`) can therefore appear after the output of a command executed later. The events are in call order, and the buffering is not modelled.
- Runner.FailureClosesFence: the fence echo closes the code block only when the output before it ended with a newline. After a `\`-joined line, `println!("{s}")` (`src/main.rs:341`) appends the fence to the pending text. The lemma states that the echoed line closes the fence, not what the terminal shows.
- Runs.ShebangLine: proved for a `#!` line whose remainder has no backtick, backslash or `!`. Any other `#!` line goes through the directive loop like any line (`Dispatch.Dispatch`).
- Dispatch.Dispatch: the loop is bounded by `fuel`. Where the source loops forever, the model returns `Hang` for every fuel value. A terminating loop gives the same result for all sufficient fuel (`Dispatch.FuelMonotone`).
- The environment is fixed for the whole run. `files` and `status` do not change, so a command cannot create a file that a later `!inc:` reads, or change the status of a later command.
- Tokens.NowPatternInText, Tokens.NowZoneOnlyInText, Tokens.TodayPatternInText and Tokens.TodayZoneOnlyInText: the text around the token is required to be inert, with no backtick, backslash or `!`. Lines with inline code or several spans go through the general scanner lemmas (`Spans.ScanPlainPrefix`, `Spans.ScanToken`, `Text.ReplaceSkip`), with no single lemma for the whole pass.
- Driver.Inputs: standard input named twice is modelled as two independent line sequences. In the source, the second read finds standard input already at its end.

=== FILE: decimal.dfy ===
/** Rust's `Display` for integers (`format!("{n}")`): an optional minus
    sign followed by decimal digits without leading zeros, together with
    the parser that inverts it. */
module Decimal {
  import opened Wrappers

  predicate IsDigit(c: char)
  {
    '0' <= c <= '9'
  }

  predicate AllDigits(s: string)
  {
    forall i :: 0 <= i < |s| ==> IsDigit(s[i])
  }

  function DigitChar(d: nat): (c: char)
    requires d < 10
    ensures IsDigit(c) && c as int - '0' as int == d
  {
    ('0' as int + d) as char
  }

  function DigitValue(c: char): nat
    requires IsDigit(c)
  {
    c as int - '0' as int
  }

  /** Decimal digits of a natural number, most significant first. */
  function NatToString(n: nat): (r: string)
    ensures |r| >= 1 && AllDigits(r)
    ensures n > 0 ==> r[0] != '0'
    decreases n
  {
    (if n < 10 then [] else NatToString(n / 10)) + [DigitChar(n % 10)]
  }

  /** `format!("{n}")` for a signed integer. */
  function IntToString(n: int): (r: string)
    ensures |r| >= 1
    ensures n < 0 <==> r[0] == '-'
    ensures n >= 0 ==> AllDigits(r)
    ensures n < 0 ==> |r| >= 2 && AllDigits(r[1..])
  {
    if n < 0 then "-" + NatToString(-n) else NatToString(n)
  }

  function ParseNat(s: string): nat
    requires AllDigits(s)
    decreases |s|
  {
    if |s| == 0 then 0 else ParseNat(s[..|s| - 1]) * 10 + DigitValue(s[|s| - 1])
  }

  /** Reads back what `IntToString` writes: `-`? digits+. */
  function ParseInt(s: string): Option<int>
  {
    if |s| > 0 && s[0] == '-' then
      if |s| > 1 && AllDigits(s[1..]) then Some(-(ParseNat(s[1..]) as int)) else None
    else if |s| > 0 && AllDigits(s) then Some(ParseNat(s))
    else None
  }

  lemma {:induction false} NatRoundTrip(n: nat)
    ensures ParseNat(NatToString(n)) == n
    decreases n
  {
    var s := NatToString(n);
    var q, d := n / 10, n % 10;
    var front: string := if n < 10 then [] else NatToString(q);
    assert s == front + [DigitChar(d)];
    assert s[..|s| - 1] == front;
    assert ParseNat(s) == ParseNat(front) * 10 + d;
    if n >= 10 {
      NatRoundTrip(q);
    }
    assert ParseNat(front) == q;
  }

  /** Printing an integer and parsing the text gives the integer back. */
  lemma IntRoundTrip(n: int)
    ensures ParseInt(IntToString(n)) == Some(n)
  {
    if n < 0 {
      NatRoundTrip(-n);
      assert IntToString(n)[1..] == NatToString(-n);
    } else {
      NatRoundTrip(n);
    }
  }
}

=== FILE: dispatch.dfy ===
/** `process_line` as a pure step `(queue, line) -> (queue', actions)`.
    The loop of the source becomes a recursion whose fuel counts span
    substitution passes; running out of fuel yields `Hang`, which stands
    for the source looping forever (a malformed token such as
    `` `!elapsedX `` is never rewritten, so its `contains` test stays
    true). */
module Dispatch {
  import opened Text
  import opened Spans

  /** What a line asks of the outside world. */
  datatype Action =
    | Run(command: string)                 // `run(command, ...)`
    | Include(path: string)                // print the named file's lines verbatim
    | Print(text: string, newline: bool)   // `println!` when `newline`, else `print!`

  datatype Outcome = Done(queue: seq<string>, actions: seq<Action>) | Hang

  const RunPrefix: string := "!run:"
  const IncPrefix: string := "!inc:"

  /** The plain-text branch, on already un-escaped text: a trailing `\\`
      is an escaped hard break (one backslash and a newline are printed),
      a trailing single `\` joins the next output line (no newline),
      anything else is printed with a newline. */
  function Fallback(text: string): Action
  {
    if EndsWith(text, "\\\\") then Print(text[..|text| - 2] + "\\", true)
    else if EndsWith(text, "\\") then Print(text[..|text| - 1], false)
    else Print(text, true)
  }

  /** Every action `Dispatch` and `Step` emit, as one predicate: at most one
      action, no action while a command is still pending, and a `Run` only
      with the queue drained. */
  predicate WellShaped(o: Outcome)
  {
    o.Done? ==>
      && |o.actions| <= 1
      && (|o.queue| > 0 ==> o.actions == [])
      && (|o.actions| == 1 && o.actions[0].Run? ==> o.queue == [])
  }

  /** The loop of `process_line` with an empty command queue. */
  function Dispatch(clock: Clock, line: string, fuel: nat): (r: Outcome)
    ensures WellShaped(r)
    ensures r.Done? ==> |r.queue| <= 1
    decreases fuel
  {
    if StartsWith(line, RunPrefix) then
      var command := line[|RunPrefix|..];
      if EndsWith(command, "\\") then Done([command[..|command| - 1]], [])
      else Done([], [Run(command)])
    else if StartsWith(line, IncPrefix) then
      Done([], [Include(line[|IncPrefix|..])])
    else if HasSpan(line) then
      if fuel == 0 then Hang else Dispatch(clock, SpanPass(clock, line), fuel - 1)
    else
      Done([], [Fallback(Unescape(line))])
  }

  /** `process_line`: a non-empty queue swallows the line as a command
      fragment before any directive is looked at. */
  function Step(clock: Clock, queue: seq<string>, line: string, fuel: nat): (r: Outcome)
    ensures WellShaped(r)
    ensures |queue| > 0 ==> r.Done? && (|r.actions| == 1 ==> r.actions[0].Run?)
    ensures |queue| > 0 && r.Done? && |r.queue| > 0 ==>
      && |r.queue| == |queue| + 1 && r.queue[..|queue|] == queue
      && EndsWith(line, "\\") && r.queue[|queue|] == line[..|line| - 1]
  {
    if |queue| > 0 then
      if EndsWith(line, "\\") then Done(queue + [line[..|line| - 1]], [])
      else Done([], [Run(Concat(queue + [line]))])
    else
      Dispatch(clock, line, fuel)
  }

  // ---------------------------------------------------------------------
  // Properties

  /** What the printed text is, newline included. */
  function Rendered(a: Action): string
  {
    match a
    case Print(t, nl) => t + (if nl then "\n" else "")
    case _ => []
  }

  /** Reads an output line back into the text that produced it. */
  function Restore(out: string): string
  {
    if |out| > 0 && out[|out| - 1] == '\n' then
      var body := out[..|out| - 1];
      if EndsWith(body, "\\") then body + "\\" else body
    else out + "\\"
  }

  /** The fallback loses nothing: from what it prints, the (un-escaped)
      line can be recovered exactly, so trailing backslashes only ever
      trade a backslash for a newline or the lack of one. */
  lemma FallbackRestores(text: string)
    requires '\n' !in text
    ensures Fallback(text).Print?
    ensures Restore(Rendered(Fallback(text))) == text
  {
    var n := |text|;
    if EndsWith(text, "\\\\") {
      var out := text[..n - 2] + "\\" + "\n";
      assert out[..|out| - 1] == text[..n - 2] + "\\";
      assert text[..n - 2] + "\\" + "\\" == text;
    } else if EndsWith(text, "\\") {
      var out := text[..n - 1];
      if |out| > 0 {
        assert out[|out| - 1] == text[n - 2];
      }
      assert out + "\\" == text;
    } else {
      var out := text + "\n";
      assert out[..|out| - 1] == text;
    }
  }

  /** Plain-text output in the three trailing-backslash cases. */
  lemma FallbackCases(body: string)
    ensures !EndsWith(body, "\\") ==> Fallback(body) == Print(body, true)
    ensures !EndsWith(body, "\\") ==> Fallback(body + "\\") == Print(body, false)
    ensures Fallback(body + "\\\\") == Print(body + "\\", true)
  {
    var one := body + "\\";
    var two := body + "\\\\";
    assert one[..|one| - 1] == body;
    assert two[..|two| - 2] == body;
    if !EndsWith(body, "\\") {
      if |body| > 0 {
        assert one[|one| - 2..] == [body[|body| - 1], '\\'];
        assert body[|body| - 1..] == [body[|body| - 1]];
      }
    }
  }

  /** While a command is pending, the line is a fragment and nothing else:
      a continued fragment (trailing `\`) is appended without that
      backslash and nothing happens; any other line is appended and the
      concatenation of all fragments runs once, leaving the queue empty.
      Directive prefixes and span tokens in the line play no part. */
  lemma PendingSwallows(clock: Clock, queue: seq<string>, line: string, fuel: nat)
    requires |queue| > 0
    ensures EndsWith(line, "\\") ==>
      Step(clock, queue, line, fuel) == Done(queue + [line[..|line| - 1]], [])
    ensures !EndsWith(line, "\\") ==>
      Step(clock, queue, line, fuel) == Done([], [Run(Concat(queue) + line)])
  {
    ConcatAppend(queue, line);
  }

  /** A `!run:` line with a trailing `\` opens the queue with the rest of
      the line minus that backslash and runs nothing; without it, the rest
      runs at once and the queue stays empty. */
  lemma RunLine(clock: Clock, command: string, fuel: nat)
    ensures EndsWith(command, "\\") ==>
      Step(clock, [], RunPrefix + command, fuel) == Done([command[..|command| - 1]], [])
    ensures !EndsWith(command, "\\") ==>
      Step(clock, [], RunPrefix + command, fuel) == Done([], [Run(command)])
  {
    var line := RunPrefix + command;
    assert line[..|RunPrefix|] == RunPrefix;
    assert line[|RunPrefix|..] == command;
  }

  /** An `!inc:` line asks for the named file and nothing else. */
  lemma IncludeLine(clock: Clock, path: string, fuel: nat)
    ensures Step(clock, [], IncPrefix + path, fuel) == Done([], [Include(path)])
  {
    var line := IncPrefix + path;
    assert line[..|IncPrefix|] == IncPrefix;
    assert line[1] == 'i';
    assert line[|IncPrefix|..] == path;
  }

  /** A line with no directive prefix and no span token goes straight to
      the plain-text branch: escaped heads are un-escaped and printed,
      never substituted, whatever the fuel. */
  lemma NoDirectiveFallsThrough(clock: Clock, line: string, fuel: nat)
    requires !StartsWith(line, RunPrefix) && !StartsWith(line, IncPrefix) && !HasSpan(line)
    ensures Step(clock, [], line, fuel) == Done([], [Fallback(Unescape(line))])
  {
  }

  /** Inert text (no backtick, backslash or `!`) is printed exactly as it
      is, with a newline. */
  lemma InertLinePrinted(clock: Clock, line: string, fuel: nat)
    requires Inert(line)
    ensures Step(clock, [], line, fuel) == Done([], [Print(line, true)])
  {
    InertFixed(clock, line);
    if |line| >= 1 {
      assert line[0] in line;
    }
    assert !StartsWith(line, RunPrefix) by {
      if |line| >= |RunPrefix| { assert line[0] == line[..|RunPrefix|][0]; }
    }
    assert !StartsWith(line, IncPrefix) by {
      if |line| >= |IncPrefix| { assert line[0] == line[..|IncPrefix|][0]; }
    }
    assert !EndsWith(line, "\\") by {
      if |line| >= 1 { assert line[|line| - 1] == line[|line| - 1..][0]; }
    }
  }

  /** Once a pass has produced inert text, the next iteration prints it. */
  lemma PassToInert(clock: Clock, line: string, fuel: nat)
    requires !StartsWith(line, RunPrefix) && !StartsWith(line, IncPrefix) && HasSpan(line)
    requires Inert(SpanPass(clock, line))
    ensures Step(clock, [], line, fuel + 1) == Done([], [Print(SpanPass(clock, line), true)])
  {
    InertLinePrinted(clock, SpanPass(clock, line), fuel);
  }

  /** The span case of the loop: one pass, one unit of fuel. */
  predicate SpanCase(line: string)
  {
    !StartsWith(line, RunPrefix) && !StartsWith(line, IncPrefix) && HasSpan(line)
  }

  lemma SpanStep(clock: Clock, line: string, fuel: nat)
    requires SpanCase(line) && fuel > 0
    ensures Dispatch(clock, line, fuel) == Dispatch(clock, SpanPass(clock, line), fuel - 1)
  {
  }

  lemma SpanNeedsFuel(clock: Clock, line: string, fuel: nat)
    requires SpanCase(line) && Dispatch(clock, line, fuel).Done?
    ensures fuel > 0
  {
  }

  lemma NoSpanFuelFree(clock: Clock, line: string, fuel: nat, more: nat)
    requires !SpanCase(line)
    ensures Dispatch(clock, line, more) == Dispatch(clock, line, fuel)
  {
  }

  /** The loop from `line` finishes within `fuel` passes. */
  predicate Settles(clock: Clock, line: string, fuel: nat)
  {
    Dispatch(clock, line, fuel).Done?
  }

  /** The loop from `line` ends alike with fuel `a` and with fuel `b`. */
  predicate SameOutcome(clock: Clock, line: string, a: nat, b: nat)
  {
    Dispatch(clock, line, a) == Dispatch(clock, line, b)
  }

  /** More fuel never changes an outcome that was already reached: fuel
      only bounds the number of passes. */
  lemma {:induction false} FuelMonotone(clock: Clock, line: string, fuel: nat, more: nat)
    requires Settles(clock, line, fuel) && fuel <= more
    ensures SameOutcome(clock, line, more, fuel)
    decreases fuel, 1
  {
    if SpanCase(line) {
      SpanFuelMonotone(clock, line, fuel, more);
    } else {
      NoSpanFuelFree(clock, line, fuel, more);
    }
  }

  /** A finished span line finished its next line with one unit less. */
  lemma DoneAfterPass(clock: Clock, line: string, fuel: nat)
    requires SpanCase(line) && Settles(clock, line, fuel)
    ensures fuel > 0 && Settles(clock, SpanPass(clock, line), fuel - 1)
  {
  }

  /** Two runs of a span line end alike when the runs from its next line
      do. */
  lemma SameAfterPass(clock: Clock, line: string, a: nat, b: nat)
    requires SpanCase(line) && a > 0 && b > 0
    requires SameOutcome(clock, SpanPass(clock, line), a - 1, b - 1)
    ensures SameOutcome(clock, line, a, b)
  {
  }

  /** The span case of `FuelMonotone`: one pass, then the rest. */
  lemma {:induction false} SpanFuelMonotone(clock: Clock, line: string, fuel: nat, more: nat)
    requires SpanCase(line) && Settles(clock, line, fuel) && fuel <= more
    ensures SameOutcome(clock, line, more, fuel)
    decreases fuel, 0
  {
    DoneAfterPass(clock, line, fuel);
    FuelMonotone(clock, SpanPass(clock, line), fuel - 1, more - 1);
    SameAfterPass(clock, line, more, fuel);
  }
}

=== FILE: driver.dfy ===
/** `main`'s loop over its inputs: every line first goes through the fence
    tracker and then through `process_line`; the actions a line produces
    are carried out against a model of the outside world (the files that
    open, with the lines read from them, and the exit status each command would have). The fence and the
    pending command live outside the loop, so both carry over from one
    input to the next. */
module Driver {
  import opened Wrappers
  import opened Text
  import opened Spans
  import opened Dispatch
  import Fence
  import Runner

  /** A command-line input: `-` reads standard input, anything else names
      a file. */
  datatype Input = Stdin(lines: seq<string>) | File(path: string)

  /** The world a run sees. `files` maps each path that opens to the lines read from it;
      `status(c)` is the exit status command `c` ends with (`None` when a
      signal ended it); `fuel` bounds the span passes of one line. */
  datatype Env = Env(
    clock: Clock,
    files: map<string, seq<string>>,
    status: string -> Option<int>,
    ignoreRunFail: bool,
    fuel: nat)

  /** What persists between lines: the open fence and the pending command. */
  datatype State = State(fence: Option<string>, queue: seq<string>)

  /** What the run does, in program order: text handed to `print!` or
      `println!`, and commands executed (whose own output is not modelled).
      This is the order of the calls, not of the bytes on the terminal:
      standard output is line-buffered, so text printed without a newline
      can appear after the output of a command executed later. */
  datatype Event = Emit(text: string, newline: bool) | Exec(command: string)

  /** How the processing ends: all input consumed, an exit with a status,
      or a line whose span loop never terminates. */
  datatype Halt = Finished(state: State) | Exited(code: int) | Spins

  datatype Trace = Trace(events: seq<Event>, halt: Halt)

  const InputMissingExit: int := 101
  const IncludeMissingExit: int := 102

  /** Lines written with `println!`. */
  function Emits(lines: seq<string>): (r: seq<Event>)
    ensures |r| == |lines|
    ensures forall i :: 0 <= i < |lines| ==> r[i] == Emit(lines[i], true)
  {
    seq(|lines|, i requires 0 <= i < |lines| => Emit(lines[i], true))
  }

  /** Carries out one action; `next` is the state to continue from. The
      fence passed to `run` is the one already updated for this line. */
  function Act(env: Env, a: Action, next: State): (r: Trace)
    ensures a.Print? ==> r == Trace([Emit(a.text, a.newline)], Finished(next))
    ensures a.Include? ==> (a.path in env.files <==> r.halt.Finished?)
    ensures a.Include? && a.path in env.files ==> r.events == Emits(env.files[a.path]) && r.halt == Finished(next)
    ensures a.Include? && a.path !in env.files ==> r == Trace([], Exited(IncludeMissingExit))
    ensures a.Run? ==> |r.events| >= 1 && r.events[0] == Exec(a.command)
    ensures a.Run? ==> (r.halt.Finished? <==> env.ignoreRunFail || env.status(a.command) == Some(0))
    ensures a.Run? && !r.halt.Finished? ==> r.halt == Exited(Runner.RunFailExit)
    ensures r.halt.Finished? ==> r.halt.state == next
    ensures r.halt != Spins
  {
    match a
    case Print(t, nl) => Trace([Emit(t, nl)], Finished(next))
    case Include(p) =>
      if p in env.files then Trace(Emits(env.files[p]), Finished(next))
      else Trace([], Exited(IncludeMissingExit))
    case Run(c) =>
      match Runner.RunFailure(c, env.status(c), env.ignoreRunFail, next.fence)
      case Continue => Trace([Exec(c)], Finished(next))
      case Fail(lines, code) => Trace([Exec(c)] + Emits(lines), Exited(code))
  }

  /** One input line: `update_fence`, then `process_line`. */
  function Line(env: Env, st: State, line: string): (r: Trace)
    ensures r.halt.Finished? ==> r.halt.state.fence == Fence.UpdateFence(line, st.fence)
    ensures r.halt.Exited? ==> r.halt.code == IncludeMissingExit || r.halt.code == Runner.RunFailExit
    ensures |st.queue| > 0 ==> r.halt != Spins
  {
    var fence := Fence.UpdateFence(line, st.fence);
    match Step(env.clock, st.queue, line, env.fuel)
    case Hang => Trace([], Spins)
    case Done(q, acts) =>
      if |acts| == 0 then Trace([], Finished(State(fence, q)))
      else Act(env, acts[0], State(fence, q))
  }

  /** The fence after a sequence of lines, tracked on its own. */
  function FenceAfter(fence: Option<string>, lines: seq<string>): Option<string>
    decreases |lines|
  {
    if |lines| == 0 then fence else FenceAfter(Fence.UpdateFence(lines[0], fence), lines[1..])
  }

  /** `t` followed by `u`: the events of both, and how `u` ends. */
  function Join(t: Trace, u: Trace): (r: Trace)
    ensures r.halt == u.halt && |r.events| == |t.events| + |u.events|
  {
    Trace(t.events + u.events, u.halt)
  }

  lemma JoinAssoc(t: Trace, m: Trace, u: Trace)
    ensures Join(t, Join(m, u)) == Join(Join(t, m), u)
  {
    assert t.events + (m.events + u.events) == (t.events + m.events) + u.events;
  }

  /** The lines of one input, in order, stopping at the first line that
      does not finish. */
  function Lines(env: Env, st: State, lines: seq<string>): (r: Trace)
    ensures r.halt.Finished? ==> r.halt.state.fence == FenceAfter(st.fence, lines)
    ensures r.halt.Exited? ==> r.halt.code == IncludeMissingExit || r.halt.code == Runner.RunFailExit
    decreases |lines|
  {
    if |lines| == 0 then Trace([], Finished(st))
    else
      var t := Line(env, st, lines[0]);
      if t.halt.Finished? then
        Join(t, Lines(env, t.halt.state, lines[1..]))
      else t
  }

  /** One step of `Lines`: the first line, then the rest from the state it
      leaves, unless it halts. */
  lemma LinesCons(env: Env, st: State, lines: seq<string>)
    requires |lines| > 0
    ensures Line(env, st, lines[0]).halt.Finished? ==>
      Lines(env, st, lines) == Join(Line(env, st, lines[0]), Lines(env, Line(env, st, lines[0]).halt.state, lines[1..]))
    ensures !Line(env, st, lines[0]).halt.Finished? ==> Lines(env, st, lines) == Line(env, st, lines[0])
  {
  }

  const Shebang: string := "#!"

  /** The lines of a file that are processed: a first line starting with
      `#!` is skipped. */
  function FileBody(lines: seq<string>): (r: seq<string>)
    ensures |lines| - 1 <= |r| <= |lines| && r == lines[|lines| - |r|..]
    ensures |r| < |lines| <==> |lines| > 0 && StartsWith(lines[0], Shebang)
  {
    if |lines| > 0 && StartsWith(lines[0], Shebang) then lines[1..] else lines
  }

  /** The inputs, in order; a file that cannot be opened ends the run. */
  function Inputs(env: Env, st: State, inputs: seq<Input>): (r: Trace)
    ensures r.halt.Exited? ==> r.halt.code in {InputMissingExit, IncludeMissingExit, Runner.RunFailExit}
    decreases |inputs|
  {
    if |inputs| == 0 then Trace([], Finished(st))
    else
      var t := Source(env, st, inputs[0]);
      if t.halt.Finished? then
        Join(t, Inputs(env, t.halt.state, inputs[1..]))
      else t
  }

  /** A whole run, from no open fence and no pending command. */
  function Kapow(env: Env, inputs: seq<Input>): (r: Trace)
    ensures |inputs| == 0 ==> r == Trace([], Finished(State(None, [])))
    ensures |inputs| > 0 && inputs[0].File? && inputs[0].path !in env.files ==> r == Trace([], Exited(InputMissingExit))
    ensures r.halt.Exited? ==> r.halt.code in {InputMissingExit, IncludeMissingExit, Runner.RunFailExit}
  {
    Inputs(env, State(None, []), inputs)
  }

  // ---------------------------------------------------------------------
  // Properties

  /** Processing `a + b` is processing `a`, then `b` from where `a` left
      off; a halt inside `a` means `b` is never read. */
  lemma {:induction false} LinesAppend(env: Env, st: State, a: seq<string>, b: seq<string>)
    ensures Lines(env, st, a + b)
         == (var t := Lines(env, st, a);
             if t.halt.Finished? then Join(t, Lines(env, t.halt.state, b)) else t)
    decreases |a|
  {
    if |a| == 0 {
      assert a + b == b;
      assert Join(Trace([], Finished(st)), Lines(env, st, b)) == Lines(env, st, b);
    } else {
      var ab := a + b;
      assert ab[0] == a[0];
      assert ab[1..] == a[1..] + b;
      var t := Line(env, st, a[0]);
      if t.halt.Finished? {
        assert Lines(env, st, ab) == Join(t, Lines(env, t.halt.state, a[1..] + b));
        assert Lines(env, st, a) == Join(t, Lines(env, t.halt.state, a[1..]));
        LinesAppend(env, t.halt.state, a[1..], b);
        var m := Lines(env, t.halt.state, a[1..]);
        if m.halt.Finished? {
          JoinAssoc(t, m, Lines(env, m.halt.state, b));
        }
      } else {
        assert Lines(env, st, ab) == t;
        assert Lines(env, st, a) == t;
      }
    }
  }

  /** Splitting standard input in two changes nothing: the fence and the
      pending command survive the boundary. */
  lemma StdinSplit(env: Env, st: State, a: seq<string>, b: seq<string>)
    ensures Inputs(env, st, [Stdin(a), Stdin(b)]) == Inputs(env, st, [Stdin(a + b)])
  {
    LinesAppend(env, st, a, b);
    var t := Lines(env, st, a);
    var end := Trace([], Finished(st));
    if t.halt.Finished? {
      var u := Lines(env, t.halt.state, b);
      assert [Stdin(a), Stdin(b)][1..] == [Stdin(b)];
      var v := Inputs(env, t.halt.state, [Stdin(b)]);
      if u.halt.Finished? {
        assert [Stdin(b)][1..] == [];
        assert Inputs(env, u.halt.state, []) == Trace([], u.halt);
        assert v == Join(u, Trace([], u.halt));
        JoinAssoc(t, u, Trace([], u.halt));
      } else {
        assert v == u;
      }
    }
  }

  /** One input on its own. */
  function Source(env: Env, st: State, input: Input): (r: Trace)
    ensures r.halt == Exited(InputMissingExit) <==> input.File? && input.path !in env.files
    ensures r.halt.Exited? ==> r.halt.code in {InputMissingExit, IncludeMissingExit, Runner.RunFailExit}
  {
    match input
    case Stdin(ls) => Lines(env, st, ls)
    case File(p) =>
      if p in env.files then Lines(env, st, FileBody(env.files[p])) else Trace([], Exited(InputMissingExit))
  }

  /** Inputs processed one after another: `xs + ys` is `xs`, then `ys` from
      the state `xs` ends in. */
  lemma {:induction false} InputsAppend(env: Env, st: State, xs: seq<Input>, ys: seq<Input>)
    ensures Inputs(env, st, xs + ys)
         == (var t := Inputs(env, st, xs);
             if t.halt.Finished? then Join(t, Inputs(env, t.halt.state, ys)) else t)
    decreases |xs|
  {
    if |xs| == 0 {
      assert xs + ys == ys;
      assert Join(Trace([], Finished(st)), Inputs(env, st, ys)) == Inputs(env, st, ys);
    } else {
      var zs := xs + ys;
      assert zs[0] == xs[0];
      assert zs[1..] == xs[1..] + ys;
      var t := Source(env, st, xs[0]);
      if t.halt.Finished? {
        assert Inputs(env, st, zs) == Join(t, Inputs(env, t.halt.state, xs[1..] + ys));
        assert Inputs(env, st, xs) == Join(t, Inputs(env, t.halt.state, xs[1..]));
        InputsAppend(env, t.halt.state, xs[1..], ys);
        var m := Inputs(env, t.halt.state, xs[1..]);
        if m.halt.Finished? {
          JoinAssoc(t, m, Inputs(env, m.halt.state, ys));
        }
      } else {
        assert Inputs(env, st, zs) == t;
        assert Inputs(env, st, xs) == t;
      }
    }
  }

  /** The open fence is always a complete fence line. */
  lemma {:induction false} LinesKeepFenceValid(fence: Option<string>, lines: seq<string>)
    requires Fence.ValidFence(fence)
    ensures Fence.ValidFence(FenceAfter(fence, lines))
    decreases |lines|
  {
    if |lines| > 0 {
      Fence.UpdatePreservesValid(lines[0], fence);
      LinesKeepFenceValid(Fence.UpdateFence(lines[0], fence), lines[1..]);
    }
  }
}

=== FILE: duration.dfy ===
/** `human_duration`: the `[Nd][Nh][Nm]Ns` rendering of the time elapsed
    since the run started, used by the `` `!elapsed` `` span. The duration
    is given as chrono's `num_seconds()` (whole seconds, truncated toward
    zero); the other three fields are chrono's `num_days`, `num_hours` and
    `num_minutes`, each a TOTAL count obtained by truncating division of
    that number of seconds, not a remainder. */
module Duration {
  import opened Wrappers
  import opened Decimal
  import opened Text

  const SecondsPerMinute: int := 60
  const SecondsPerHour: int := 3600
  const SecondsPerDay: int := 86400

  /** Rust's `i64` division, which truncates toward zero. */
  function Quot(a: int, b: int): (q: int)
    requires b > 0
    ensures a >= 0 ==> q == a / b
    ensures a < 0 ==> q == -((-a) / b)
  {
    if a >= 0 then a / b else -((-a) / b)
  }

  predicate IsUnit(u: char)
  {
    u == 'd' || u == 'h' || u == 'm' || u == 's'
  }

  /** Seconds in one unit. */
  function UnitSeconds(u: char): nat
  {
    match u
    case 'd' => SecondsPerDay
    case 'h' => SecondsPerHour
    case 'm' => SecondsPerMinute
    case _ => 1
  }

  /** The total count chrono reports for a unit: `num_days`, `num_hours`,
      `num_minutes` or `num_seconds`. The count is the number of whole
      units in the duration, truncated toward zero: it has the sign of the
      duration, and one unit more would overshoot it. */
  function Total(secs: int, u: char): (t: int)
    requires IsUnit(u)
    ensures secs >= 0 ==> 0 <= t * UnitSeconds(u) <= secs < (t + 1) * UnitSeconds(u)
    ensures secs < 0 ==> (t - 1) * UnitSeconds(u) < secs <= t * UnitSeconds(u) <= 0
  {
    match u
    case 'd' => Quot(secs, SecondsPerDay)
    case 'h' => Quot(secs, SecondsPerHour)
    case 'm' => Quot(secs, SecondsPerMinute)
    case _ => secs
  }

  /** The inner helper `f(n, abbr)`: a non-zero count with its unit, the
      literal `0s` for a zero seconds field, nothing for other zero fields. */
  function Piece(n: int, abbr: char): Option<string>
  {
    if n != 0 then Some(IntToString(n) + [abbr])
    else if abbr == 's' then Some("0s")
    else None
  }

  /** `filter_map(..).collect::<Vec<String>>().join("")`, written as one
      left-to-right walk. */
  function JoinPieces(ps: seq<Option<string>>): string
    decreases |ps|
  {
    if |ps| == 0 then []
    else PieceText(ps[0]) + JoinPieces(ps[1..])
  }

  function HumanDuration(secs: int): string
  {
    JoinPieces([Piece(Total(secs, 'd'), 'd'), Piece(Total(secs, 'h'), 'h'),
                Piece(Total(secs, 'm'), 'm'), Piece(secs, 's')])
  }

  /** A field of the rendered duration: a count and its unit letter. */
  datatype Field = Field(count: int, unit: char)

  function Show(f: Field): string
  {
    IntToString(f.count) + [f.unit]
  }

  function Render(fs: seq<Field>): string
    decreases |fs|
  {
    if |fs| == 0 then [] else Show(fs[0]) + Render(fs[1..])
  }

  predicate IsNumberChar(c: char)
  {
    c == '-' || IsDigit(c)
  }

  /** Length of the leading run of sign and digit characters. */
  function NumberLen(s: string): (k: nat)
    ensures k <= |s|
    ensures forall i :: 0 <= i < k ==> IsNumberChar(s[i])
    ensures k < |s| ==> !IsNumberChar(s[k])
    decreases |s|
  {
    if |s| > 0 && IsNumberChar(s[0]) then 1 + NumberLen(s[1..]) else 0
  }

  /** Reads a rendered duration back into its fields: each field is a
      signed decimal count followed by one unit character. */
  function ParseDuration(s: string): Option<seq<Field>>
    decreases |s|
  {
    if |s| == 0 then Some([])
    else
      var k := NumberLen(s);
      if k == |s| then None
      else match (ParseInt(s[..k]), ParseDuration(s[k + 1..]))
        case (Some(n), Some(rest)) => Some([Field(n, s[k])] + rest)
        case _ => None
  }

  /** A field kept only when its count is non-zero. */
  function Keep(n: int, u: char): seq<Field>
  {
    if n != 0 then [Field(n, u)] else []
  }

  /** The fields `human_duration` prints, in order: days, hours and
      minutes when their total count is non-zero, seconds always. */
  function FieldsOf(secs: int): seq<Field>
  {
    Keep(Total(secs, 'd'), 'd') + Keep(Total(secs, 'h'), 'h') + Keep(Total(secs, 'm'), 'm')
    + [Field(secs, 's')]
  }

  predicate HasUnit(fs: seq<Field>, u: char)
  {
    exists i :: 0 <= i < |fs| && fs[i].unit == u
  }

  function Rank(u: char): int
  {
    match u
    case 'd' => 0
    case 'h' => 1
    case 'm' => 2
    case _ => 3
  }

  lemma {:induction false} RenderAppend(a: seq<Field>, b: seq<Field>)
    ensures Render(a + b) == Render(a) + Render(b)
    decreases |a|
  {
    if |a| == 0 {
      assert a + b == b;
    } else {
      assert (a + b)[0] == a[0];
      assert (a + b)[1..] == a[1..] + b;
      RenderAppend(a[1..], b);
      calc {
        Render(a + b);
        Show(a[0]) + Render(a[1..] + b);
        Show(a[0]) + (Render(a[1..]) + Render(b));
        (Show(a[0]) + Render(a[1..])) + Render(b);
      }
    }
  }

  lemma ShowNumberLen(f: Field, rest: string)
    requires !IsNumberChar(f.unit)
    ensures NumberLen(Show(f) + rest) == |IntToString(f.count)|
  {
    var t := IntToString(f.count);
    var s := Show(f) + rest;
    assert s[|t|] == f.unit;
    forall i | 0 <= i < |t| ensures IsNumberChar(s[i]) {
      assert s[i] == t[i];
      if f.count < 0 && i > 0 {
        assert t[i] == t[1..][i - 1];
      }
    }
    var k := NumberLen(s);
    assert k == |t|;
  }

  /** Rendering a list of fields and parsing the text gives the fields
      back, whatever the counts, as long as no unit letter could be read
      as part of a number. */
  lemma {:induction false} ParseRender(fs: seq<Field>)
    requires forall i :: 0 <= i < |fs| ==> !IsNumberChar(fs[i].unit)
    ensures ParseDuration(Render(fs)) == Some(fs)
    decreases |fs|
  {
    if |fs| > 0 {
      var f := fs[0];
      var t := IntToString(f.count);
      var s := Render(fs);
      assert s == t + [f.unit] + Render(fs[1..]);
      ShowNumberLen(f, Render(fs[1..]));
      assert s[..|t|] == t;
      assert s[|t|] == f.unit;
      assert s[|t| + 1..] == Render(fs[1..]);
      IntRoundTrip(f.count);
      ParseRender(fs[1..]);
      assert [f] + fs[1..] == fs;
    }
  }

  lemma JoinPiecesCons(p: Option<string>, rest: seq<Option<string>>)
    ensures JoinPieces([p] + rest) == PieceText(p) + JoinPieces(rest)
  {
    assert ([p] + rest)[1..] == rest;
  }

  lemma PieceKeep(n: int, u: char)
    requires u != 's'
    ensures PieceText(Piece(n, u)) == Render(Keep(n, u))
  {
    if n != 0 {
      assert Render([Field(n, u)]) == Show(Field(n, u)) + Render([]);
    }
  }

  lemma PieceSeconds(n: int)
    ensures PieceText(Piece(n, 's')) == Render([Field(n, 's')])
  {
    assert Render([Field(n, 's')]) == Show(Field(n, 's')) + Render([]);
    assert IntToString(0) == "0";
  }

  /** The `filter_map` step on its own: the pieces that are present, in
      order. */
  function Present(ps: seq<Option<string>>): seq<string>
    decreases |ps|
  {
    if |ps| == 0 then []
    else (if ps[0].Some? then [ps[0].value] else []) + Present(ps[1..])
  }

  /** The walk is `filter_map` followed by concatenation with the empty
      separator. */
  lemma {:induction false} JoinIsConcat(ps: seq<Option<string>>)
    ensures JoinPieces(ps) == Concat(Present(ps))
    decreases |ps|
  {
    if |ps| > 0 {
      var head := if ps[0].Some? then [ps[0].value] else [];
      JoinIsConcat(ps[1..]);
      ConcatSplit(head, Present(ps[1..]));
      if ps[0].Some? {
        ConcatSingle(ps[0].value);
      }
    }
  }

  /** A piece is present except for a zero day, hour or minute count, and
      a present piece reads back as exactly its count and unit. */
  lemma PieceRoundTrip(n: int, abbr: char)
    requires IsUnit(abbr)
    ensures Piece(n, abbr).None? <==> n == 0 && abbr != 's'
    ensures Piece(n, abbr).Some? ==> ParseDuration(Piece(n, abbr).value) == Some([Field(n, abbr)])
  {
    if Piece(n, abbr).Some? {
      var f := Field(n, abbr);
      assert !IsNumberChar(abbr);
      assert IntToString(0) == "0";
      assert Piece(n, abbr).value == Show(f);
      assert [f][1..] == [];
      assert Render([f]) == Show(f) + [];
      assert Show(f) + [] == Show(f);
      ParseRender([f]);
    }
  }

  function PieceText(p: Option<string>): string
  {
    match p case Some(t) => t case None => []
  }

  lemma JoinTwo(m: int, s: int)
    ensures JoinPieces([Piece(m, 'm'), Piece(s, 's')]) == Render(Keep(m, 'm') + [Field(s, 's')])
  {
    var pm, ps := Piece(m, 'm'), Piece(s, 's');
    JoinPiecesCons(ps, []);
    assert [ps] + [] == [ps];
    PieceSeconds(s);
    JoinPiecesCons(pm, [ps]);
    assert [pm] + [ps] == [pm, ps];
    PieceKeep(m, 'm');
    RenderAppend(Keep(m, 'm'), [Field(s, 's')]);
  }

  lemma JoinThree(h: int, m: int, s: int)
    ensures JoinPieces([Piece(h, 'h'), Piece(m, 'm'), Piece(s, 's')])
         == Render(Keep(h, 'h') + (Keep(m, 'm') + [Field(s, 's')]))
  {
    var ph, tail := Piece(h, 'h'), [Piece(m, 'm'), Piece(s, 's')];
    JoinTwo(m, s);
    JoinPiecesCons(ph, tail);
    assert [ph] + tail == [Piece(h, 'h'), Piece(m, 'm'), Piece(s, 's')];
    PieceKeep(h, 'h');
    RenderAppend(Keep(h, 'h'), Keep(m, 'm') + [Field(s, 's')]);
  }

  /** The four pieces joined are the rendering of the kept fields. */
  lemma JoinFour(d: int, h: int, m: int, s: int)
    ensures JoinPieces([Piece(d, 'd'), Piece(h, 'h'), Piece(m, 'm'), Piece(s, 's')])
         == Render(Keep(d, 'd') + Keep(h, 'h') + Keep(m, 'm') + [Field(s, 's')])
  {
    var pd, tail := Piece(d, 'd'), [Piece(h, 'h'), Piece(m, 'm'), Piece(s, 's')];
    var rest := Keep(h, 'h') + (Keep(m, 'm') + [Field(s, 's')]);
    calc {
      JoinPieces([Piece(d, 'd'), Piece(h, 'h'), Piece(m, 'm'), Piece(s, 's')]);
      { assert [pd] + tail == [Piece(d, 'd'), Piece(h, 'h'), Piece(m, 'm'), Piece(s, 's')]; }
      JoinPieces([pd] + tail);
      { JoinPiecesCons(pd, tail); }
      PieceText(pd) + JoinPieces(tail);
      { JoinThree(h, m, s); PieceKeep(d, 'd'); }
      Render(Keep(d, 'd')) + Render(rest);
      { RenderAppend(Keep(d, 'd'), rest); }
      Render(Keep(d, 'd') + rest);
      { assert Keep(d, 'd') + rest == Keep(d, 'd') + Keep(h, 'h') + Keep(m, 'm') + [Field(s, 's')]; }
      Render(Keep(d, 'd') + Keep(h, 'h') + Keep(m, 'm') + [Field(s, 's')]);
    }
  }

  /** `human_duration` prints exactly the fields of `FieldsOf`. */
  lemma HumanDurationRenders(secs: int)
    ensures HumanDuration(secs) == Render(FieldsOf(secs))
  {
    JoinFour(Total(secs, 'd'), Total(secs, 'h'), Total(secs, 'm'), secs);
  }

  lemma HasUnitAppend(a: seq<Field>, b: seq<Field>, u: char)
    ensures HasUnit(a + b, u) <==> HasUnit(a, u) || HasUnit(b, u)
  {
    if HasUnit(a + b, u) {
      var i :| 0 <= i < |a + b| && (a + b)[i].unit == u;
      if i >= |a| {
        assert b[i - |a|].unit == u;
      }
    }
    if HasUnit(b, u) {
      var i :| 0 <= i < |b| && b[i].unit == u;
      assert (a + b)[i + |a|].unit == u;
    }
    if HasUnit(a, u) {
      var i :| 0 <= i < |a| && a[i].unit == u;
      assert (a + b)[i].unit == u;
    }
  }

  /** Every field of `FieldsOf` is a unit with its total count, in rank order. */
  lemma FieldsOfShape(secs: int)
    ensures var fs := FieldsOf(secs);
      && |fs| >= 1
      && fs[|fs| - 1] == Field(secs, 's')
      && (forall i :: 0 <= i < |fs| ==> IsUnit(fs[i].unit) && fs[i].count == Total(secs, fs[i].unit))
      && (forall i, j :: 0 <= i < j < |fs| ==> Rank(fs[i].unit) < Rank(fs[j].unit))
  {
    var kd, kh, km := Keep(Total(secs, 'd'), 'd'), Keep(Total(secs, 'h'), 'h'), Keep(Total(secs, 'm'), 'm');
    var fs := FieldsOf(secs);
    assert fs == kd + kh + km + [Field(secs, 's')];
    forall i | 0 <= i < |fs|
      ensures IsUnit(fs[i].unit) && fs[i].count == Total(secs, fs[i].unit)
      ensures Rank(fs[i].unit) == (if i == |fs| - 1 then 3
        else if i < |kd| then 0 else if i < |kd| + |kh| then 1 else 2)
    {
      if i < |kd| {
        assert fs[i] == kd[i];
      } else if i < |kd| + |kh| {
        assert fs[i] == kh[i - |kd|];
      } else if i < |kd| + |kh| + |km| {
        assert fs[i] == km[i - |kd| - |kh|];
      }
    }
  }

  /** The units of `FieldsOf`: days, hours and minutes exactly when their
      totals are non-zero, seconds always. */
  lemma FieldsOfUnits(secs: int)
    ensures HasUnit(FieldsOf(secs), 'd') <==> Total(secs, 'd') != 0
    ensures HasUnit(FieldsOf(secs), 'h') <==> Total(secs, 'h') != 0
    ensures HasUnit(FieldsOf(secs), 'm') <==> Total(secs, 'm') != 0
    ensures HasUnit(FieldsOf(secs), 's')
  {
    var kd, kh, km := Keep(Total(secs, 'd'), 'd'), Keep(Total(secs, 'h'), 'h'), Keep(Total(secs, 'm'), 'm');
    var ks := [Field(secs, 's')];
    forall u | u in "dhms"
      ensures HasUnit(FieldsOf(secs), u) <==> HasUnit(kd, u) || HasUnit(kh, u) || HasUnit(km, u) || HasUnit(ks, u)
    {
      HasUnitAppend(kd, kh, u);
      HasUnitAppend(kd + kh, km, u);
      HasUnitAppend(kd + kh + km, ks, u);
    }
    assert ks[0].unit == 's';
    if Total(secs, 'd') != 0 { assert kd[0].unit == 'd'; }
    if Total(secs, 'h') != 0 { assert kh[0].unit == 'h'; }
    if Total(secs, 'm') != 0 { assert km[0].unit == 'm'; }
  }

  /** What the `!elapsed` text says: read back field by field, it is the
      list `FieldsOf`, so it names days, hours and minutes in that order,
      each with its TOTAL count and only when that count is non-zero, and
      always ends with the full number of seconds. */
  lemma HumanDurationFields(secs: int)
    ensures ParseDuration(HumanDuration(secs)) == Some(FieldsOf(secs))
    ensures var fs := FieldsOf(secs);
      && |fs| >= 1
      && fs[|fs| - 1] == Field(secs, 's')
      && (forall i :: 0 <= i < |fs| ==> IsUnit(fs[i].unit) && fs[i].count == Total(secs, fs[i].unit))
      && (forall i, j :: 0 <= i < j < |fs| ==> Rank(fs[i].unit) < Rank(fs[j].unit))
      && (HasUnit(fs, 'd') <==> Total(secs, 'd') != 0)
      && (HasUnit(fs, 'h') <==> Total(secs, 'h') != 0)
      && (HasUnit(fs, 'm') <==> Total(secs, 'm') != 0)
      && HasUnit(fs, 's')
  {
    HumanDurationParses(secs);
    FieldsOfShape(secs);
    FieldsOfUnits(secs);
  }

  lemma HumanDurationParses(secs: int)
    ensures ParseDuration(HumanDuration(secs)) == Some(FieldsOf(secs))
  {
    FieldsOfShape(secs);
    HumanDurationRenders(secs);
    ParseRender(FieldsOf(secs));
  }

  /** A zero duration prints `0s`. */
  lemma ZeroDuration()
    ensures HumanDuration(0) == "0s"
  {
    HumanDurationRenders(0);
    assert IntToString(0) == "0";
  }

  /** Under a minute only the seconds field is printed. */
  lemma UnderAMinute(secs: int)
    requires 0 <= secs < 60
    ensures HumanDuration(secs) == IntToString(secs) + "s"
  {
    HumanDurationRenders(secs);
  }

  lemma ShowOneHour()
    ensures Show(Field(1, 'h')) == "1h"
  {
    assert NatToString(1) == "1";
  }

  lemma ShowSixtyOneMinutes()
    ensures Show(Field(61, 'm')) == "61m"
  {
    assert NatToString(6) == "6";
    assert NatToString(61) == NatToString(6) + ['1'];
  }

  lemma ShowSeconds3661()
    ensures Show(Field(3661, 's')) == "3661s"
  {
    assert NatToString(3) == "3";
    assert NatToString(36) == NatToString(3) + ['6'];
    assert NatToString(366) == NatToString(36) + ['6'];
    assert NatToString(3661) == NatToString(366) + ['1'];
  }

  lemma FieldsOf3661()
    ensures FieldsOf(3661) == [Field(1, 'h'), Field(61, 'm'), Field(3661, 's')]
  {
    assert Total(3661, 'd') == 0 && Total(3661, 'h') == 1 && Total(3661, 'm') == 61;
  }

  lemma Render3661()
    ensures Render([Field(1, 'h'), Field(61, 'm'), Field(3661, 's')]) == "1h61m3661s"
  {
    var fs := [Field(1, 'h'), Field(61, 'm'), Field(3661, 's')];
    ShowOneHour();
    ShowSixtyOneMinutes();
    ShowSeconds3661();
    assert Render(fs[2..]) == "3661s" by { assert fs[2..][1..] == []; }
    assert Render(fs[1..]) == "61m" + "3661s" by { assert fs[1..][1..] == fs[2..]; }
    assert Render(fs) == "1h" + ("61m" + "3661s");
  }

  /** An hour, a minute and a second print as `1h61m3661s`: every field
      counts the whole duration in its own unit. */
  lemma TotalCountsExample()
    ensures HumanDuration(3661) == "1h61m3661s"
  {
    HumanDurationRenders(3661);
    FieldsOf3661();
    Render3661();
  }

  lemma {:induction false} RenderAlphabet(fs: seq<Field>)
    requires forall i :: 0 <= i < |fs| ==> IsUnit(fs[i].unit)
    ensures forall i :: 0 <= i < |Render(fs)| ==> IsNumberChar(Render(fs)[i]) || IsUnit(Render(fs)[i])
    decreases |fs|
  {
    if |fs| > 0 {
      var t := IntToString(fs[0].count);
      RenderAlphabet(fs[1..]);
      var r := Render(fs);
      assert r == t + [fs[0].unit] + Render(fs[1..]);
      forall i | 0 <= i < |r| ensures IsNumberChar(r[i]) || IsUnit(r[i]) {
        if i < |t| {
          if fs[0].count < 0 && i > 0 { assert t[i] == t[1..][i - 1]; }
        } else if i > |t| {
          assert r[i] == Render(fs[1..])[i - |t| - 1];
        }
      }
    }
  }

  /** The elapsed text is made of signs, digits and the unit letters only:
      it can never contain a backtick, a backslash or a `!`. */
  lemma HumanDurationAlphabet(secs: int)
    ensures forall i :: 0 <= i < |HumanDuration(secs)| ==>
      IsNumberChar(HumanDuration(secs)[i]) || IsUnit(HumanDuration(secs)[i])
  {
    HumanDurationRenders(secs);
    FieldsOfShape(secs);
    RenderAlphabet(FieldsOf(secs));
  }
}

=== FILE: fence.dfy ===
/** `update_fence` and the `FENCE_RE` pattern `^(\s*(```+|~~~+))`: the
    code-fence tracker that `main` runs on every input line before the
    line is dispatched. The open fence is remembered so that a failing
    command can echo it and close the code block before its error text. */
module Fence {
  import opened Wrappers

  /** Rust regex `\s`: the Unicode White_Space property. */
  predicate IsSpace(c: char)
  {
    || ('\t' <= c <= '\r') || c == ' ' || c == '\U{85}' || c == '\U{A0}' || c == '\U{1680}'
    || ('\U{2000}' <= c <= '\U{200A}') || c == '\U{2028}' || c == '\U{2029}'
    || c == '\U{202F}' || c == '\U{205F}' || c == '\U{3000}'
  }

  predicate IsFenceChar(c: char)
  {
    c == '`' || c == '~'
  }

  /** Length of the leading whitespace run (`\s*`, greedy). */
  function SpaceRun(s: string): (k: nat)
    ensures k <= |s|
    ensures forall i :: 0 <= i < k ==> IsSpace(s[i])
    ensures k < |s| ==> !IsSpace(s[k])
    decreases |s|
  {
    if |s| > 0 && IsSpace(s[0]) then 1 + SpaceRun(s[1..]) else 0
  }

  /** Length of the leading run of copies of `c` (`c+`, greedy). */
  function CharRun(s: string, c: char): (k: nat)
    ensures k <= |s|
    ensures forall i :: 0 <= i < k ==> s[i] == c
    ensures k < |s| ==> s[k] != c
    decreases |s|
  {
    if |s| > 0 && s[0] == c then 1 + CharRun(s[1..], c) else 0
  }

  /** `FENCE_RE.find(line)`: the anchored match, if any. Since whitespace
      and fence characters are disjoint, the greedy `\s*` never backtracks
      and the match is the whole leading whitespace plus the whole run of
      the fence character that follows it. */
  function FenceMatch(line: string): Option<string>
  {
    var w := SpaceRun(line);
    if w < |line| && IsFenceChar(line[w]) && CharRun(line[w..], line[w]) >= 3 then
      Some(line[..w + CharRun(line[w..], line[w])])
    else
      None
  }

  /** The regex reading of a match: `w` whitespace characters, then `k`
      (at least three) copies of one fence character, not followed by a
      further copy. */
  ghost predicate FencePrefix(line: string, w: nat, k: nat)
  {
    && w + k <= |line|
    && k >= 3
    && (forall i :: 0 <= i < w ==> IsSpace(line[i]))
    && IsFenceChar(line[w])
    && (forall i :: w <= i < w + k ==> line[i] == line[w])
    && (w + k == |line| || line[w + k] != line[w])
  }

  /** The scanner agrees with the pattern in both directions: it matches
      exactly when the line starts with a fence prefix, and then returns
      that prefix. */
  lemma FenceMatchSpec(line: string)
    ensures FenceMatch(line).Some? <==> exists w, k :: FencePrefix(line, w, k)
    ensures forall w, k :: FencePrefix(line, w, k) ==> FenceMatch(line) == Some(line[..w + k])
  {
    var w := SpaceRun(line);
    if w < |line| && IsFenceChar(line[w]) {
      var k := CharRun(line[w..], line[w]);
      assert forall i :: w <= i < w + k ==> line[i] == line[w] by {
        forall i | w <= i < w + k ensures line[i] == line[w] { assert line[w..][i - w] == line[i]; }
      }
      if w + k < |line| { assert line[w..][k] == line[w + k]; }
      if k >= 3 { assert FencePrefix(line, w, k); }
    }
    forall w', k' | FencePrefix(line, w', k') ensures FenceMatch(line) == Some(line[..w' + k']) {
      PrefixUnique(line, w', k');
    }
  }

  /** Any fence prefix is the one the scanner finds. */
  lemma PrefixUnique(line: string, w': nat, k': nat)
    requires FencePrefix(line, w', k')
    ensures SpaceRun(line) == w'
    ensures CharRun(line[w'..], line[w']) == k'
  {
    var w := SpaceRun(line);
    assert !IsSpace(line[w']);
    assert w == w';
    var k := CharRun(line[w'..], line[w']);
    assert k == k' by {
      assert forall i :: 0 <= i < k' ==> line[w'..][i] == line[w'];
      assert w' + k' < |line| ==> line[w'..][k'] != line[w'];
    }
  }

  /** `update_fence`: the first fence line seen opens a fence; only the
      identical prefix closes it; any other line leaves the state alone. */
  function UpdateFence(line: string, fence: Option<string>): Option<string>
  {
    match FenceMatch(line)
    case None => fence
    case Some(m) =>
      match fence
      case Some(s) => if m == s then None else fence
      case None => Some(m)
  }

  /** The four cases of the tracker. */
  lemma UpdateFenceCases(line: string, fence: Option<string>)
    ensures FenceMatch(line).None? ==> UpdateFence(line, fence) == fence
    ensures FenceMatch(line).Some? && fence.None? ==> UpdateFence(line, fence) == FenceMatch(line)
    ensures FenceMatch(line).Some? && fence == FenceMatch(line) ==> UpdateFence(line, fence).None?
    ensures FenceMatch(line).Some? && fence.Some? && fence != FenceMatch(line) ==> UpdateFence(line, fence) == fence
  {
  }

  /** A remembered fence is always a complete fence line in its own right. */
  predicate ValidFence(fence: Option<string>)
  {
    fence.None? || FenceMatch(fence.value) == Some(fence.value)
  }

  /** A match, taken as a line of its own, matches itself. */
  lemma MatchIsFence(line: string)
    requires FenceMatch(line).Some?
    ensures FenceMatch(FenceMatch(line).value) == FenceMatch(line)
  {
    FenceMatchSpec(line);
    var w := SpaceRun(line);
    var k := CharRun(line[w..], line[w]);
    var m := line[..w + k];
    assert FencePrefix(line, w, k);
    assert FencePrefix(m, w, k);
    FenceMatchSpec(m);
    assert m[..w + k] == m;
  }

  /** The tracker only ever remembers complete fence lines. */
  lemma UpdatePreservesValid(line: string, fence: Option<string>)
    requires ValidFence(fence)
    ensures ValidFence(UpdateFence(line, fence))
  {
    if FenceMatch(line).Some? && fence.None? {
      MatchIsFence(line);
    }
  }

  /** Echoing the open fence as a line closes it: this is what keeps the
      error block printed after a failing command outside the code block. */
  lemma EchoClosesFence(fence: Option<string>)
    requires ValidFence(fence) && fence.Some?
    ensures UpdateFence(fence.value, fence).None?
  {
  }

  /** Two identical fence lines open and then close a fence. */
  lemma OpenThenClose()
    ensures UpdateFence("```", None) == Some("```")
    ensures UpdateFence("```", Some("```")).None?
  {
    assert SpaceRun("```") == 0;
    assert "```"[0..] == "```";
    assert CharRun("```", '`') == 3;
    assert "```"[..3] == "```";
    assert FenceMatch("```") == Some("```");
  }

  /** A different marker leaves the open fence alone: tildes, a longer
      backtick run, or the same run indented. */
  lemma OtherMarkersKeepFence()
    ensures UpdateFence("~~~", Some("```")) == Some("```")
    ensures UpdateFence("````", Some("```")) == Some("```")
    ensures UpdateFence("  ```", Some("```")) == Some("```")
  {
    assert SpaceRun("~~~") == 0 && SpaceRun("````") == 0;
    assert "~~~"[0..] == "~~~";
    assert CharRun("~~~", '~') == 3;
    assert "````"[0..] == "````";
    assert CharRun("````", '`') == 4;
    assert SpaceRun("  ```") == 2;
    assert "  ```"[2..] == "```";
    assert CharRun("```", '`') == 3;
  }

  /** An info string after the fence does not belong to the marker: the
      plain fence line closes a fence opened as ```` ```rust ````. */
  lemma InfoStringIgnored()
    ensures UpdateFence("```rust", None) == Some("```")
    ensures UpdateFence("```", Some("```")).None?
  {
    assert SpaceRun("```rust") == 0;
    assert "```rust"[0..] == "```rust";
    assert CharRun("```rust", '`') == 3;
    assert "```rust"[..3] == "```";
    OpenThenClose();
  }
}

=== FILE: pager.dfy ===
/** `page`: the pager command line handed to `Pager::with_pager`. `bat -p`
    prints plain output; a further `P` turns paging off; `l <lang>` picks
    the syntax. Setting the pager up is not modelled, only the string. */
module Pager {
  import opened Wrappers
  import opened Text

  const Base: string := "bat -p"

  function PagerCommand(readme: bool, noPage: bool, noLang: bool, lang: string): (r: string)
    ensures StartsWith(r, Base)
  {
    var paging := if readme == noPage then "P" else "";
    var syntax := if !(|lang| == 0 || noLang) then "l " + lang else "";
    Base + paging + syntax
  }

  /** What a pager command asks of `bat`. */
  datatype Settings = Settings(pagingOff: bool, language: Option<string>)

  /** Reads the settings back from a command line of the shape `page`
      builds. */
  function ParsePager(s: string): (r: Option<Settings>)
  {
    if !StartsWith(s, Base) then None
    else
      var rest := s[|Base|..];
      var off := |rest| > 0 && rest[0] == 'P';
      var syntax := if off then rest[1..] else rest;
      if |syntax| == 0 then Some(Settings(off, None))
      else if |syntax| >= 2 && syntax[..2] == "l " then Some(Settings(off, Some(syntax[2..])))
      else None
  }

  lemma SyntaxTail(paging: string, lang: string)
    ensures (Base + paging + ("l " + lang))[|Base|..] == paging + ("l " + lang)
    ensures (Base + paging)[|Base|..] == paging
  {
  }

  /** `page` loses nothing: paging is switched off exactly when `readme`
      equals `no_page`, and a language is passed exactly when one is given
      and `--no-lang` is absent. */
  lemma PagerRoundTrip(readme: bool, noPage: bool, noLang: bool, lang: string)
    ensures ParsePager(PagerCommand(readme, noPage, noLang, lang))
         == Some(Settings(readme == noPage, if |lang| == 0 || noLang then None else Some(lang)))
  {
    var paging := if readme == noPage then "P" else "";
    var s := PagerCommand(readme, noPage, noLang, lang);
    var rest := s[|Base|..];
    if |lang| == 0 || noLang {
      assert s == Base + paging;
      SyntaxTail(paging, lang);
      assert rest == paging;
    } else {
      var syntax := "l " + lang;
      assert s == Base + paging + syntax;
      SyntaxTail(paging, lang);
      assert rest == paging + syntax;
      if readme == noPage {
        assert rest[1..] == syntax;
      }
      assert syntax[..2] == "l " && syntax[2..] == lang;
    }
  }

  /** The two call sites in `main`. For a document, `page(false, --page, ..)`:
      paging is off unless `--page` is given. For the readme,
      `page(true, --no-page, ..)`: paging is on unless `--no-page` is given. */
  lemma MainPaging(page: bool, noPage: bool, noLang: bool, lang: string)
    ensures ParsePager(PagerCommand(false, page, noLang, lang)).value.pagingOff <==> !page
    ensures ParsePager(PagerCommand(true, noPage, noLang, lang)).value.pagingOff <==> noPage
  {
    PagerRoundTrip(false, page, noLang, lang);
    PagerRoundTrip(true, noPage, noLang, lang);
  }
}

=== FILE: runner.dfy ===
/** The end of `run`: after a command has finished, a failure (a non-zero
    status, or no status at all because a signal ended the process) stops
    the whole program unless failures are ignored. Before the message, an
    open code fence is echoed so that the Markdown written so far stays
    balanced. Spawning the command and wrapping its output are not part of
    this module: the status is an input. */
module Runner {
  import opened Wrappers
  import opened Text
  import Decimal
  import Fence

  /** The exit status `kapow` ends with after a failed command. */
  const RunFailExit: int := 104

  /** Rust's `{:?}` rendering of an `Option<i32>` status. */
  function DebugCode(code: Option<int>): (r: string)
    ensures code.None? <==> r == "None"
    ensures code.Some? ==> |r| >= 7 && r[..5] == "Some(" && r[|r| - 1] == ')'
  {
    match code
    case None => "None"
    case Some(n) => "Some(" + Decimal.IntToString(n) + ")"
  }

  /** Reads a status back from its `{:?}` rendering. */
  function ParseDebugCode(s: string): (r: Option<Option<int>>)
  {
    if s == "None" then Some(None)
    else if |s| >= 6 && s[..5] == "Some(" && s[|s| - 1] == ')' then
      match Decimal.ParseInt(s[5..|s| - 1])
      case Some(n) => Some(Some(n))
      case None => None
    else None
  }

  lemma DebugCodeRoundTrip(code: Option<int>)
    ensures ParseDebugCode(DebugCode(code)) == Some(code)
  {
    if code.Some? {
      var s := DebugCode(code);
      var digits := Decimal.IntToString(code.value);
      assert s[5..|s| - 1] == digits;
      Decimal.IntRoundTrip(code.value);
    }
  }

  const MessageHead: string := "\n---\n\nERROR: Command `"
  const MessageMiddle: string := "` exited with error code `"
  const MessageTail: string := "`\n"

  /** The text of the failure message (before `println!` adds its own
      newline): a horizontal rule, then the command and its status, each
      in backticks. */
  function ErrorMessage(command: string, code: Option<int>): (r: string)
  {
    MessageHead + command + MessageMiddle + DebugCode(code) + MessageTail
  }

  /** Reads the two fields back out of `head + field + middle + code + tail`
      when `middle` starts with a backtick: the field is everything up to
      the first backtick after the head. */
  function ParseFields(m: string, head: string, middle: string, tail: string): (r: Option<(string, Option<int>)>)
  {
    if |m| >= |head| + |tail| && m[..|head|] == head && m[|m| - |tail|..] == tail then
      ParseInner(m[|head|..|m| - |tail|], middle)
    else None
  }

  function ParseInner(inner: string, middle: string): (r: Option<(string, Option<int>)>)
  {
    match IndexOf(inner, '`')
    case None => None
    case Some(j) =>
      var rest := inner[j..];
      if |rest| >= |middle| && rest[..|middle|] == middle then
        match ParseDebugCode(rest[|middle|..])
        case Some(code) => Some((inner[..j], code))
        case None => None
      else None
  }

  /** Where the parts of `command + middle + d` sit. */
  lemma InnerSplit(command: string, middle: string, d: string)
    requires '`' !in command && |middle| > 0 && middle[0] == '`'
    ensures var inner := command + middle + d;
      && IndexOf(inner, '`') == Some(|command|) && inner[..|command|] == command
      && inner[|command|..] == middle + d
  {
    var inner := command + middle + d;
    assert inner[|command|] == '`';
    assert inner[..|command|] == command;
    IndexOfFirst(inner, '`', |command|);
    assert inner[|command|..] == middle + d;
  }

  lemma InnerRoundTrip(command: string, middle: string, code: Option<int>)
    requires '`' !in command && |middle| > 0 && middle[0] == '`'
    ensures ParseInner(command + middle + DebugCode(code), middle) == Some((command, code))
  {
    var d := DebugCode(code);
    InnerSplit(command, middle, d);
    var rest := middle + d;
    assert rest[..|middle|] == middle;
    assert rest[|middle|..] == d;
    DebugCodeRoundTrip(code);
  }

  lemma FieldsRoundTrip(head: string, command: string, middle: string, code: Option<int>, tail: string)
    requires '`' !in command && |middle| > 0 && middle[0] == '`'
    ensures ParseFields(head + command + middle + DebugCode(code) + tail, head, middle, tail) == Some((command, code))
  {
    var inner := command + middle + DebugCode(code);
    var m := head + inner + tail;
    assert head + command + middle + DebugCode(code) + tail == m;
    assert m[..|head|] == head;
    assert m[|m| - |tail|..] == tail;
    assert m[|head|..|m| - |tail|] == inner;
    InnerRoundTrip(command, middle, code);
  }

  function ParseErrorMessage(m: string): (r: Option<(string, Option<int>)>)
  {
    ParseFields(m, MessageHead, MessageMiddle, MessageTail)
  }

  /** The failure message names the command and the status exactly, as
      long as the command itself holds no backtick. */
  lemma ErrorMessageRoundTrip(command: string, code: Option<int>)
    requires '`' !in command
    ensures ParseErrorMessage(ErrorMessage(command, code)) == Some((command, code))
  {
    FieldsRoundTrip(MessageHead, command, MessageMiddle, code, MessageTail);
  }

  /** What `run` does once the status is known: carry on, or print the
      given lines (each followed by a newline) and exit. */
  datatype Verdict = Continue | Fail(lines: seq<string>, exitCode: int)

  function RunFailure(command: string, code: Option<int>, ignoreRunFail: bool, fence: Option<string>): (r: Verdict)
    ensures r.Fail? <==> !ignoreRunFail && code != Some(0)
    ensures r.Fail? ==> r.exitCode == RunFailExit
    ensures r.Fail? ==> |r.lines| == (if fence.Some? then 2 else 1)
    ensures r.Fail? ==> r.lines[|r.lines| - 1] == ErrorMessage(command, code)
    ensures r.Fail? && fence.Some? ==> r.lines[0] == fence.value
  {
    if !ignoreRunFail && code != Some(0) then
      var echo := match fence case Some(s) => [s] case None => [];
      Fail(echo + [ErrorMessage(command, code)], RunFailExit)
    else
      Continue
  }

  /** The echoed fence does close the open block: read as Markdown input,
      the first line of the failure output ends the fence that was open. */
  lemma FailureClosesFence(command: string, code: Option<int>, ignoreRunFail: bool, fence: Option<string>)
    requires Fence.ValidFence(fence) && fence.Some?
    requires RunFailure(command, code, ignoreRunFail, fence).Fail?
    ensures Fence.UpdateFence(RunFailure(command, code, ignoreRunFail, fence).lines[0], fence).None?
  {
    Fence.EchoClosesFence(fence);
  }
}

=== FILE: runs.dfy ===
/** Whole runs of `main`: commands spread over continuation lines, a
    command left pending at the end of the input, the exits on failure,
    and the `#!` line of a script file. */
module Runs {
  import opened Wrappers
  import opened Text
  import opened Spans
  import opened Dispatch
  import opened Driver
  import Fence
  import Runner

  /** A continuation line without its trailing backslash. */
  function Chop(line: string): (r: string)
    ensures EndsWith(line, "\\") ==> r + "\\" == line
  {
    if |line| > 0 then line[..|line| - 1] else line
  }

  function Chops(lines: seq<string>): (r: seq<string>)
    ensures |r| == |lines|
    ensures forall i :: 0 <= i < |lines| ==> r[i] == Chop(lines[i])
    decreases |lines|
  {
    if |lines| == 0 then [] else [Chop(lines[0])] + Chops(lines[1..])
  }

  predicate AllContinued(lines: seq<string>)
  {
    forall i :: 0 <= i < |lines| ==> EndsWith(lines[i], "\\")
  }

  lemma LinePending(env: Env, st: State, m: string)
    requires |st.queue| > 0 && EndsWith(m, "\\")
    ensures Line(env, st, m) == Trace([], Finished(State(Fence.UpdateFence(m, st.fence), st.queue + [Chop(m)])))
  {
    PendingSwallows(env.clock, st.queue, m, env.fuel);
  }

  /** A continuation line consumed while a command is pending leaves no
      trace but the longer queue. */
  lemma PendingStep(env: Env, st: State, mids: seq<string>)
    requires |st.queue| > 0 && |mids| > 0 && EndsWith(mids[0], "\\")
    ensures Lines(env, st, mids)
         == Lines(env, State(Fence.UpdateFence(mids[0], st.fence), st.queue + [Chop(mids[0])]), mids[1..])
  {
    var st1 := State(Fence.UpdateFence(mids[0], st.fence), st.queue + [Chop(mids[0])]);
    LinePending(env, st, mids[0]);
    LinesCons(env, st, mids);
    var r := Lines(env, st1, mids[1..]);
    assert Join(Trace([], Finished(st1)), r) == r;
  }

  /** While a command is pending, continuation lines only grow it: nothing
      is printed and nothing runs, whatever the lines contain. */
  lemma {:induction false} PendingOnly(env: Env, st: State, mids: seq<string>)
    requires |st.queue| > 0 && AllContinued(mids)
    ensures Lines(env, st, mids) == Trace([], Finished(State(FenceAfter(st.fence, mids), st.queue + Chops(mids))))
    decreases |mids|
  {
    if |mids| == 0 {
      assert st.queue + [] == st.queue;
    } else {
      var m := mids[0];
      var st1 := State(Fence.UpdateFence(m, st.fence), st.queue + [Chop(m)]);
      PendingStep(env, st, mids);
      var tail := mids[1..];
      assert AllContinued(tail) by {
        forall i | 0 <= i < |tail| ensures EndsWith(tail[i], "\\") { assert tail[i] == mids[i + 1]; }
      }
      PendingOnly(env, st1, tail);
      ChopsCons(st.queue, mids);
    }
  }

  lemma ChopsCons(q: seq<string>, mids: seq<string>)
    requires |mids| > 0
    ensures q + [Chop(mids[0])] + Chops(mids[1..]) == q + Chops(mids)
  {
    assert Chops(mids) == [Chop(mids[0])] + Chops(mids[1..]);
  }

  /** The line without a trailing backslash completes the command: the
      pieces are joined with nothing in between and run once, and the
      queue is empty again. */
  lemma PendingCompletes(env: Env, st: State, mids: seq<string>, last: string)
    requires |st.queue| > 0 && AllContinued(mids) && !EndsWith(last, "\\")
    ensures Lines(env, st, mids + [last])
         == Act(env, Run(Concat(st.queue + Chops(mids) + [last])), State(FenceAfter(st.fence, mids + [last]), []))
  {
    PendingOnly(env, st, mids);
    LinesAppend(env, st, mids, [last]);
    var st1 := State(FenceAfter(st.fence, mids), st.queue + Chops(mids));
    PendingSwallows(env.clock, st1.queue, last, env.fuel);
    var fin := State(Fence.UpdateFence(last, st1.fence), []);
    var t := Act(env, Run(Concat(st1.queue + [last])), fin);
    assert Line(env, st1, last) == t;
    FenceAfterAppend(st.fence, mids, last);
    if t.halt.Finished? {
      assert Lines(env, st1, [last]) == Join(t, Lines(env, fin, []));
      assert t.events + [] == t.events;
    }
  }

  lemma {:induction false} FenceAfterAppend(fence: Option<string>, lines: seq<string>, last: string)
    ensures FenceAfter(fence, lines + [last]) == Fence.UpdateFence(last, FenceAfter(fence, lines))
    decreases |lines|
  {
    if |lines| == 0 {
      assert lines + [last] == [last];
    } else {
      assert (lines + [last])[1..] == lines[1..] + [last];
      FenceAfterAppend(Fence.UpdateFence(lines[0], fence), lines[1..], last);
    }
  }

  /** `!run:` with a trailing backslash opens a command that the following
      continuation lines extend and the first plain line completes. */
  lemma RunAccumulates(env: Env, fence: Option<string>, first: string, mids: seq<string>, last: string)
    requires AllContinued(mids) && !EndsWith(last, "\\")
    ensures Lines(env, State(fence, []), [RunPrefix + first + "\\"] + mids + [last])
         == Act(env, Run(Concat([first] + Chops(mids) + [last])),
                State(FenceAfter(fence, [RunPrefix + first + "\\"] + mids + [last]), []))
  {
    var head := RunPrefix + first + "\\";
    RunLine(env.clock, first + "\\", env.fuel);
    assert RunPrefix + (first + "\\") == head;
    assert (first + "\\")[..|first + "\\"| - 1] == first;
    var st1 := State(Fence.UpdateFence(head, fence), [first]);
    assert Line(env, State(fence, []), head) == Trace([], Finished(st1));
    var all := [head] + mids + [last];
    assert all == [head] + (mids + [last]);
    LinesAppend(env, State(fence, []), [head], mids + [last]);
    assert Lines(env, State(fence, []), [head]) == Join(Trace([], Finished(st1)), Lines(env, st1, []));
    PendingCompletes(env, st1, mids, last);
    assert [head] + (mids + [last]) == [head] + mids + [last];
    assert ([head] + mids + [last])[1..] == mids + [last];
    assert FenceAfter(fence, all) == FenceAfter(st1.fence, mids + [last]);
    var t := Lines(env, st1, mids + [last]);
    assert Join(Trace([], Finished(st1)), t) == t;
  }

  /** Two lines, `!run:echo \` and `hi`, run `echo hi`. */
  lemma TwoLineCommand(env: Env, fence: Option<string>, a: string, b: string)
    requires !EndsWith(b, "\\")
    ensures var t := Lines(env, State(fence, []), [RunPrefix + a + "\\", b]);
      |t.events| > 0 && t.events[0] == Exec(a + b)
  {
    RunAccumulates(env, fence, a, [], b);
    assert [RunPrefix + a + "\\"] + [] + [b] == [RunPrefix + a + "\\", b];
    assert Chops([]) == [];
    assert [a] + [] + [b] == [a, b];
    assert Concat([a, b]) == a + b by {
      assert [a, b][..1] == [a];
      ConcatSingle(a);
    }
  }

  /** A command still pending when the input ends is never run: the run
      finishes with the command in the queue and nothing executed. */
  lemma UnfinishedCommandNeverRuns(env: Env, first: string, mids: seq<string>)
    requires AllContinued(mids)
    ensures Kapow(env, [Stdin([RunPrefix + first + "\\"] + mids)]).events == []
    ensures Kapow(env, [Stdin([RunPrefix + first + "\\"] + mids)]).halt.Finished?
    ensures Kapow(env, [Stdin([RunPrefix + first + "\\"] + mids)]).halt.state.queue == [first] + Chops(mids)
  {
    var head := RunPrefix + first + "\\";
    RunLine(env.clock, first + "\\", env.fuel);
    assert RunPrefix + (first + "\\") == head;
    assert (first + "\\")[..|first + "\\"| - 1] == first;
    var st0 := State(None, []);
    var st1 := State(Fence.UpdateFence(head, None), [first]);
    assert Line(env, st0, head) == Trace([], Finished(st1));
    LinesAppend(env, st0, [head], mids);
    assert Lines(env, st0, [head]) == Join(Trace([], Finished(st1)), Lines(env, st1, []));
    PendingOnly(env, st1, mids);
    var fin := State(FenceAfter(st1.fence, mids), [first] + Chops(mids));
    assert Lines(env, st0, [head] + mids) == Trace([], Finished(fin));
    var one := [Stdin([head] + mids)];
    assert one[1..] == [];
    assert Kapow(env, one) == Join(Trace([], Finished(fin)), Inputs(env, fin, []));
  }

  /** The open fence, echoed as a line of its own. */
  function FenceEcho(fence: Option<string>): (r: seq<Event>)
  {
    match fence
    case Some(f) => [Emit(f, true)]
    case None => []
  }

  /** A failed command ends the run with status 104 right after it: the
      open fence is echoed, then the error message, and no later line is
      looked at. */
  lemma FailureStopsRun(env: Env, st: State, line: string, command: string, rest: seq<string>)
    requires Step(env.clock, st.queue, line, env.fuel) == Done([], [Run(command)])
    requires !env.ignoreRunFail && env.status(command) != Some(0)
    ensures Lines(env, st, [line] + rest)
         == Trace([Exec(command)] + FenceEcho(Fence.UpdateFence(line, st.fence))
                  + [Emit(Runner.ErrorMessage(command, env.status(command)), true)],
                  Exited(Runner.RunFailExit))
  {
    var fence := Fence.UpdateFence(line, st.fence);
    var v := Runner.RunFailure(command, env.status(command), env.ignoreRunFail, fence);

    var t := Line(env, st, line);
    assert t == Trace([Exec(command)] + Emits(v.lines), Exited(Runner.RunFailExit));
    assert ([line] + rest)[0] == line;
    assert Lines(env, st, [line] + rest) == t;
    if fence.Some? {
      assert Emits(v.lines) == [Emit(fence.value, true), Emit(Runner.ErrorMessage(command, env.status(command)), true)];
    } else {
      assert Emits(v.lines) == [Emit(Runner.ErrorMessage(command, env.status(command)), true)];
    }
  }

  /** An `!inc:` of a file that cannot be opened ends the run with status
      102; one that opens is printed line by line. */
  lemma IncludeOutcome(env: Env, fence: Option<string>, path: string, rest: seq<string>)
    ensures path !in env.files ==>
      Lines(env, State(fence, []), [IncPrefix + path] + rest) == Trace([], Exited(IncludeMissingExit))
    ensures path in env.files ==>
      Lines(env, State(fence, []), [IncPrefix + path] + rest).events[..|env.files[path]|] == Emits(env.files[path])
  {
    var line := IncPrefix + path;
    var st := State(fence, []);
    IncludeLine(env.clock, path, env.fuel);
    var t := Line(env, st, line);
    assert ([line] + rest)[0] == line && ([line] + rest)[1..] == rest;
    if path in env.files {
      assert t.events == Emits(env.files[path]) && t.halt.Finished?;
      var u := Lines(env, t.halt.state, rest);
      assert Lines(env, st, [line] + rest) == Join(t, u);
      assert (t.events + u.events)[..|t.events|] == t.events;
    }
  }

  /** An input file that cannot be opened ends the run with status 101;
      what the earlier inputs printed stays printed. */
  lemma MissingInputStopsRun(env: Env, st: State, before: seq<Input>, path: string, after: seq<Input>)
    requires path !in env.files && Inputs(env, st, before).halt.Finished?
    ensures Inputs(env, st, before + [File(path)] + after).events == Inputs(env, st, before).events
    ensures Inputs(env, st, before + [File(path)] + after).halt == Exited(InputMissingExit)
  {
    var t := Inputs(env, st, before);
    InputsAppend(env, st, before, [File(path)] + after);
    assert before + [File(path)] + after == before + ([File(path)] + after);
    assert ([File(path)] + after)[0] == File(path);
    assert Inputs(env, t.halt.state, [File(path)] + after) == Trace([], Exited(InputMissingExit));
    assert t.events + [] == t.events;
  }

  /** The first line of a FILE is skipped when it starts with `#!`; the
      file is then processed as if the rest had come on standard input. */
  lemma ShebangSkippedInFiles(env: Env, st: State, path: string, first: string, rest: seq<string>)
    requires path in env.files && env.files[path] == [first] + rest && StartsWith(first, Shebang)
    ensures Inputs(env, st, [File(path)]) == Inputs(env, st, [Stdin(rest)])
  {
    assert ([first] + rest)[1..] == rest;
  }

  /** A file whose first line is not a `#!` line is processed whole. */
  lemma PlainFileWhole(env: Env, st: State, path: string)
    requires path in env.files
    requires |env.files[path]| == 0 || !StartsWith(env.files[path][0], Shebang)
    ensures Inputs(env, st, [File(path)]) == Inputs(env, st, [Stdin(env.files[path])])
  {
  }

  /** A `#!` line that reaches `process_line` is ordinary text. */
  lemma ShebangLine(clock: Clock, s: string, fuel: nat)
    requires Inert(s)
    ensures Step(clock, [], Shebang + s, fuel) == Done([], [Print(Shebang + s, true)])
  {
    var line := Shebang + s;
    assert line[0] == '#' && line[1] == '!';
    assert forall i :: 2 <= i < |line| ==> line[i] == s[i - 2];
    assert '`' !in line && '\\' !in line;
    DiffersAt(line, RunPrefix, 0);
    DiffersAt(line, IncPrefix, 0);
    NoFirstCharNoContains(line, "`!elapsed");
    NoFirstCharNoContains(line, "`!now");
    NoFirstCharNoContains(line, "`!today");
    NoFirstCharNoContains(line, "`\\!elapsed");
    NoFirstCharNoContains(line, "`\\!now");
    NoFirstCharNoContains(line, "`\\!today");
    ReplaceAbsent(line, "`\\!elapsed", "`!elapsed");
    ReplaceAbsent(line, "`\\!now", "`!now");
    ReplaceAbsent(line, "`\\!today", "`!today");
    NoDirectiveFallsThrough(clock, line, fuel);
    assert !EndsWith(line, "\\") by { assert line[|line| - 1] != '\\'; }
    FallbackCases(line);
  }

  /** On standard input the same `#!` line is NOT skipped: it is printed. */
  lemma ShebangPrintedOnStdin(env: Env, s: string, rest: seq<string>)
    requires Inert(s)
    ensures var t := Kapow(env, [Stdin([Shebang + s] + rest)]);
      |t.events| > 0 && t.events[0] == Emit(Shebang + s, true)
  {
    var line := Shebang + s;
    var st0 := State(None, []);
    ShebangLine(env.clock, s, env.fuel);
    var t := Line(env, st0, line);
    assert t.events == [Emit(line, true)] && t.halt.Finished?;
    assert ([line] + rest)[0] == line && ([line] + rest)[1..] == rest;
    var u := Lines(env, t.halt.state, rest);
    assert Lines(env, st0, [line] + rest) == Join(t, u);
    var w := Lines(env, st0, [line] + rest);
    assert [Stdin([line] + rest)][1..] == [];
    if w.halt.Finished? {
      assert Kapow(env, [Stdin([line] + rest)]) == Join(w, Inputs(env, w.halt.state, []));
    } else {
      assert Kapow(env, [Stdin([line] + rest)]) == w;
    }
  }

  /** Whatever the inputs, a run that finishes leaves a complete fence line
      (or none) as the open fence. */
  lemma {:induction false} InputsKeepFenceValid(env: Env, st: State, inputs: seq<Input>)
    requires Fence.ValidFence(st.fence)
    ensures Inputs(env, st, inputs).halt.Finished? ==> Fence.ValidFence(Inputs(env, st, inputs).halt.state.fence)
    decreases |inputs|
  {
    if |inputs| > 0 {
      var t := Source(env, st, inputs[0]);
      if t.halt.Finished? {
        match inputs[0] {
          case Stdin(ls) => LinesKeepFenceValid(st.fence, ls);
          case File(p) => LinesKeepFenceValid(st.fence, FileBody(env.files[p]));
        }
        InputsKeepFenceValid(env, t.halt.state, inputs[1..]);
      }
    }
  }
}

=== FILE: spans.dfy ===
/** The span directives of `process_line`: `` `!elapsed` ``, the `!now`
    family and the `!today` family, and the un-escaping done when a line
    falls through to plain text. The regular expressions
    `` `!now:([^`]*)` `` and `` `!today:([^`]*)` `` are written out as
    left-to-right scanners. Time itself is not modelled: a `Clock` carries
    the strings `main` precomputes and two uninterpreted formatting
    functions. */
module Spans {
  import opened Wrappers
  import opened Text
  import Duration

  /** What the span directives read from the outside world. `formatIn(z, f)`
      stands for `d.format(&Some(Format::custom(f)), &tz(z).ok())` and
      `defaultIn(z)` for `d.default(&tz(z).ok())`; the time-zone lookup,
      with its fallback when `z` is unknown, happens inside them. */
  datatype Clock = Clock(
    elapsed: int,        // `(Utc::now() - start).num_seconds()`
    now: string,         // `d.rfc_3339()`
    nowLocal: string,    // `d.default(&Some(local_tz))`
    nowX: string,        // `d.x_format()`
    today: string,       // `d.format(%Y-%m-%d, None)`
    todayLocal: string,  // `d.format(%Y-%m-%d, local_tz)`
    formatIn: (string, string) -> string,
    defaultIn: string -> string)

  /** The default pattern of the `!today` family. */
  const DateFormat: string := "%Y-%m-%d"

  datatype Kind = Now | Today

  /** The fixed text a regex match starts with. */
  function Head(k: Kind): (h: string)
    ensures |h| >= 2 && h[0] == '`' && h[1] == '!'
  {
    match k
    case Now => "`!now:"
    case Today => "`!today:"
  }

  /** The replacement closure for one capture group: with a `:`, the text
      before the first `:` names the zone and the rest is the pattern;
      without one, the whole capture names the zone and the default
      pattern of the family applies. */
  function Capture(clock: Clock, k: Kind, cap: string): string
  {
    match SplitOnce(cap, ':')
    case Some((zone, pattern)) => clock.formatIn(zone, pattern)
    case None =>
      match k
      case Now => clock.defaultIn(cap)
      case Today => clock.formatIn(cap, DateFormat)
  }

  /** A regex match starts here: the head, a run of non-backtick
      characters (the capture) and a closing backtick. This is the test
      `ScanTokens` makes at each position. */
  predicate MatchAt(k: Kind, s: string)
  {
    StartsWith(s, Head(k)) && IndexOf(s[|Head(k)|..], '`').Some?
  }

  /** `NOW.replace_all` / `TODAY.replace_all`: where a match starts it is
      replaced and scanning resumes behind it; elsewhere (an unclosed head
      included) scanning moves on by one character. */
  function ScanTokens(clock: Clock, k: Kind, s: string): string
    decreases |s|
  {
    if |s| == 0 then []
    else if StartsWith(s, Head(k)) && IndexOf(s[|Head(k)|..], '`').Some? then
      var body := s[|Head(k)|..];
      var j := IndexOf(body, '`').value;
      Capture(clock, k, body[..j]) + ScanTokens(clock, k, body[j + 1..])
    else
      [s[0]] + ScanTokens(clock, k, s[1..])
  }

  /** One pass of the `!elapsed` branch. */
  function ElapsedPass(clock: Clock, line: string): string
  {
    Replace(line, "`!elapsed`", Duration.HumanDuration(clock.elapsed))
  }

  /** One pass of the `!now` branch: the three literal forms first, then
      the regex. */
  function NowPass(clock: Clock, line: string): string
  {
    var l := Replace(Replace(Replace(line, "`!now`", clock.now), "`!now:local`", clock.nowLocal),
                     "`!now:x`", clock.nowX);
    ScanTokens(clock, Now, l)
  }

  /** One pass of the `!today` branch: the two literal forms first, then
      the regex. */
  function TodayPass(clock: Clock, line: string): string
  {
    var l := Replace(Replace(line, "`!today`", clock.today), "`!today:local`", clock.todayLocal);
    ScanTokens(clock, Today, l)
  }

  /** The `contains` tests that select a span branch. */
  predicate HasSpan(line: string)
  {
    Contains(line, "`!elapsed") || Contains(line, "`!now") || Contains(line, "`!today")
  }

  /** One pass of the span loop, in the fixed order elapsed, now, today. */
  function SpanPass(clock: Clock, line: string): string
    requires HasSpan(line)
  {
    if Contains(line, "`!elapsed") then ElapsedPass(clock, line)
    else if Contains(line, "`!now") then NowPass(clock, line)
    else TodayPass(clock, line)
  }

  /** The un-escaping applied to plain text: each escaped head loses its
      backslash, once. */
  function Unescape(line: string): string
  {
    Replace(Replace(Replace(line, "`\\!elapsed", "`!elapsed"), "`\\!now", "`!now"), "`\\!today", "`!today")
  }

  /** The three span names an escape can protect. */
  predicate SpanName(name: string)
  {
    name == "elapsed" || name == "now" || name == "today"
  }

  /** Text that no span pass and no fallback rule can touch: no backtick,
      no backslash, and no `!` (so it cannot start a directive either).
      The timestamp strings and the elapsed text are of this kind. */
  predicate Inert(s: string)
  {
    '`' !in s && '\\' !in s && '!' !in s
  }

  // ---------------------------------------------------------------------
  // Properties of the scanners

  lemma SplitAtFirstColon(zone: string, pattern: string)
    requires ':' !in zone
    ensures SplitOnce(zone + ":" + pattern, ':') == Some((zone, pattern))
  {
    var s := zone + ":" + pattern;
    assert s[|zone|] == ':';
    assert s[..|zone|] == zone;
    IndexOfFirst(s, ':', |zone|);
    assert s[..|zone|] == zone;
    assert s[|zone| + 1..] == pattern;
  }

  /** A capture `zone:pattern` is split at its FIRST colon: the zone holds
      no colon, the pattern may. */
  lemma CaptureWithPattern(clock: Clock, k: Kind, zone: string, pattern: string)
    requires ':' !in zone
    ensures Capture(clock, k, zone + ":" + pattern) == clock.formatIn(zone, pattern)
  {
    SplitAtFirstColon(zone, pattern);
  }

  /** A capture without a colon names only the zone: `now` uses the
      default rendering, `today` the `%Y-%m-%d` pattern. */
  lemma CaptureZoneOnly(clock: Clock, zone: string)
    requires ':' !in zone
    ensures Capture(clock, Now, zone) == clock.defaultIn(zone)
    ensures Capture(clock, Today, zone) == clock.formatIn(zone, "%Y-%m-%d")
  {
  }

  /** Text without a backtick passes through the scanner unchanged. */
  lemma {:induction false} ScanNoBacktick(clock: Clock, k: Kind, s: string)
    requires '`' !in s
    ensures ScanTokens(clock, k, s) == s
    decreases |s|
  {
    if |s| > 0 {
      assert s[0] != Head(k)[0];
      assert '`' !in s[1..] by {
        forall i | 0 <= i < |s[1..]| ensures s[1..][i] != '`' { assert s[1..][i] == s[i + 1]; }
      }
      ScanNoBacktick(clock, k, s[1..]);
      assert [s[0]] + s[1..] == s;
    }
  }

  /** A well-formed token is replaced by its capture's rendering, and
      scanning resumes right after its closing backtick. */
  lemma ScanToken(clock: Clock, k: Kind, cap: string, rest: string)
    requires '`' !in cap
    ensures ScanTokens(clock, k, Head(k) + cap + "`" + rest)
         == Capture(clock, k, cap) + ScanTokens(clock, k, rest)
  {
    var h := Head(k);
    var s := h + cap + "`" + rest;
    var body := cap + "`" + rest;
    assert s[..|h|] == h && s[|h|..] == body;
    assert body[|cap|] == '`' && body[..|cap|] == cap && body[|cap| + 1..] == rest;
    IndexOfFirst(body, '`', |cap|);
  }

  /** Text in front of the first match is copied as it is, whatever it
      holds: closed inline code, stray backticks, unclosed heads. */
  lemma {:induction false} ScanPlainPrefix(clock: Clock, k: Kind, p: string, rest: string)
    requires forall i :: 0 <= i < |p| ==> !MatchAt(k, (p + rest)[i..])
    ensures ScanTokens(clock, k, p + rest) == p + ScanTokens(clock, k, rest)
    decreases |p|
  {
    if |p| > 0 {
      var s := p + rest;
      assert !MatchAt(k, s[0..]);
      assert s[0..] == s;
      assert s[1..] == p[1..] + rest;
      forall i | 0 <= i < |p[1..]| ensures !MatchAt(k, (p[1..] + rest)[i..]) {
        assert (p[1..] + rest)[i..] == s[i + 1..];
      }
      ScanPlainPrefix(clock, k, p[1..], rest);
      assert [p[0]] + p[1..] == p;
    } else {
      assert p + rest == rest;
    }
  }

  /** Backtick-free text starts no match. */
  lemma NoBacktickNoMatch(k: Kind, p: string, rest: string)
    requires '`' !in p
    ensures forall i :: 0 <= i < |p| ==> !MatchAt(k, (p + rest)[i..])
  {
    forall i | 0 <= i < |p| ensures !MatchAt(k, (p + rest)[i..]) {
      assert (p + rest)[i..][0] == p[i];
    }
  }

  /** No match starts at a character other than a backtick, nor at a
      backtick that is not followed by `!`. */
  lemma NoMatchWithoutBang(k: Kind, t: string)
    requires |t| < 2 || t[0] != '`' || t[1] != '!'
    ensures !MatchAt(k, t)
  {
    if |t| >= 2 && t[0] != '`' {
      DiffersAt(t, Head(k), 0);
    } else {
      DiffersAt(t, Head(k), 1);
    }
  }

  /** Inline code before the tokens, as in ``Run `date` at `!now` ``, is
      copied as it is: neither of its backticks starts a match unless a `!`
      follows it. */
  lemma ScanPastInlineCode(clock: Clock, k: Kind, pre: string, code: string, rest: string)
    requires '`' !in pre && '`' !in code
    requires |code| == 0 || code[0] != '!'
    requires |rest| == 0 || rest[0] != '!'
    ensures ScanTokens(clock, k, pre + "`" + code + "`" + rest)
         == pre + "`" + code + "`" + ScanTokens(clock, k, rest)
  {
    var p := pre + "`" + code + "`";
    var s := p + rest;
    forall i | 0 <= i < |p| ensures !MatchAt(k, s[i..]) {
      var t := s[i..];
      if i < |pre| {
        assert t[0] == pre[i];
      } else if i == |pre| {
        if |t| >= 2 {
          assert t[1] == if |code| > 0 then code[0] else '`';
        }
      } else if i < |pre| + 1 + |code| {
        assert t[0] == code[i - |pre| - 1];
      } else if |t| >= 2 {
        assert t[1] == rest[0];
      }
      NoMatchWithoutBang(k, t);
    }
    ScanPlainPrefix(clock, k, p, rest);
  }

  /** A head that is never closed is not a match: the regex pass leaves
      such a line alone. */
  lemma UnclosedHeadUnchanged(clock: Clock, k: Kind, tail: string)
    requires '`' !in tail
    ensures ScanTokens(clock, k, Head(k) + tail) == Head(k) + tail
  {
    var h := Head(k);
    var s := h + tail;
    assert s[..|h|] == h;
    assert s[|h|..] == tail;
    assert s[1..] == h[1..] + tail;
    assert '`' !in h[1..] + tail by {
      if k == Now { assert h[1..] == "!now:"; } else { assert h[1..] == "!today:"; }
    }
    ScanNoBacktick(clock, k, s[1..]);
  }

  /** A pattern that starts with a backtick never occurs in inert text. */
  lemma InertReplace(s: string, pat: string, rep: string)
    requires Inert(s) && |pat| > 0 && pat[0] == '`'
    ensures Replace(s, pat, rep) == s
  {
    NoFirstCharNoContains(s, pat);
    ReplaceAbsent(s, pat, rep);
  }

  /** Inert text survives every pass and un-escaping unchanged. */
  lemma InertFixed(clock: Clock, s: string)
    requires Inert(s)
    ensures !HasSpan(s)
    ensures NowPass(clock, s) == s && TodayPass(clock, s) == s && ElapsedPass(clock, s) == s
    ensures Unescape(s) == s
  {
    NoFirstCharNoContains(s, "`!elapsed");
    NoFirstCharNoContains(s, "`!now");
    NoFirstCharNoContains(s, "`!today");
    NoFirstCharNoContains(s, "`!elapsed`");
    NoFirstCharNoContains(s, "`!now`");
    NoFirstCharNoContains(s, "`!now:local`");
    NoFirstCharNoContains(s, "`!now:x`");
    NoFirstCharNoContains(s, "`!today`");
    NoFirstCharNoContains(s, "`!today:local`");
    NoFirstCharNoContains(s, "`\\!elapsed");
    NoFirstCharNoContains(s, "`\\!now");
    NoFirstCharNoContains(s, "`\\!today");
    ReplaceAbsent(s, "`!elapsed`", Duration.HumanDuration(clock.elapsed));
    ReplaceAbsent(s, "`!now`", clock.now);
    ReplaceAbsent(s, "`!now:local`", clock.nowLocal);
    ReplaceAbsent(s, "`!now:x`", clock.nowX);
    ReplaceAbsent(s, "`!today`", clock.today);
    ReplaceAbsent(s, "`!today:local`", clock.todayLocal);
    ReplaceAbsent(s, "`\\!elapsed", "`!elapsed");
    ReplaceAbsent(s, "`\\!now", "`!now");
    ReplaceAbsent(s, "`\\!today", "`!today");
    ScanNoBacktick(clock, Now, s);
    ScanNoBacktick(clock, Today, s);
  }

  // ---------------------------------------------------------------------
  // Un-escaping, head by head

  /** A span name holds neither a backtick nor a backslash. */
  lemma SpanNameChars(name: string)
    requires SpanName(name)
    ensures |name| >= 3 && '`' !in name && '\\' !in name
  {
  }

  /** The names differ in their first letter. */
  lemma SpanNamesDiffer(name: string, other: string)
    requires SpanName(name) && SpanName(other) && name != other
    ensures name[0] != other[0]
  {
  }

  /** A pass of `Unescape` copies text with no backslash as it is, when
      what follows it does not start with a backslash. */
  lemma EscapeSkipsPlain(pre: string, rest: string, other: string)
    requires SpanName(other) && '\\' !in pre && (|rest| > 0 ==> rest[0] != '\\')
    ensures Replace(pre + rest, "`\\!" + other, "`!" + other)
         == pre + Replace(rest, "`\\!" + other, "`!" + other)
  {
    var pat := "`\\!" + other;
    forall i | 0 <= i < |pre| && (pre + rest)[i] == pat[0] && i + 1 < |pre + rest|
      ensures (pre + rest)[i + 1] != pat[1]
    {
      if i + 1 < |pre| {
        assert (pre + rest)[i + 1] == pre[i + 1];
      } else {
        assert (pre + rest)[i + 1] == rest[0];
      }
    }
    PairSkip(pre, rest, pat, "`!" + other);
  }

  /** The pass for a name replaces that name's escaped head. */
  lemma EscapeHeadReplaced(name: string, post: string)
    requires SpanName(name)
    ensures Replace(("`\\!" + name) + post, "`\\!" + name, "`!" + name)
         == ("`!" + name) + Replace(post, "`\\!" + name, "`!" + name)
  {
    var pat := "`\\!" + name;
    assert pat + post == [] + pat + post;
    ReplaceFirst([], pat, "`!" + name, post);
  }

  /** The pass for another name keeps the escaped head. */
  lemma EscapeHeadKept(name: string, other: string, post: string)
    requires SpanName(name) && SpanName(other) && name != other
    ensures Replace(("`\\!" + name) + post, "`\\!" + other, "`!" + other)
         == ("`\\!" + name) + Replace(post, "`\\!" + other, "`!" + other)
  {
    var h, pat := "`\\!" + name, "`\\!" + other;
    SpanNameChars(name);
    SpanNamesDiffer(name, other);
    forall i | 0 <= i < |h| ensures !StartsWith((h + post)[i..], pat) {
      if i == 0 {
        assert (h + post)[i..][3] == name[0];
        DiffersAt((h + post)[i..], pat, 3);
      } else {
        assert (h + post)[i..][0] == h[i];
        assert h[i] != '`' by {
          if i >= 3 { assert h[i] == name[i - 3]; }
        }
        DiffersAt((h + post)[i..], pat, 0);
      }
    }
    ReplaceSkip(h, post, pat, "`!" + other);
  }

  /** The pass for a name, over that name's escaped head behind text with
      no backslash: the head loses its backslash and the pass goes on
      behind it. */
  lemma EscapeOverOwnHead(pre: string, name: string, post: string)
    requires SpanName(name) && '\\' !in pre
    ensures Replace(pre + ("`\\!" + name) + post, "`\\!" + name, "`!" + name)
         == pre + ("`!" + name) + Replace(post, "`\\!" + name, "`!" + name)
  {
    var h := "`\\!" + name;
    assert pre + h + post == pre + (h + post);
    EscapeSkipsPlain(pre, h + post, name);
    EscapeHeadReplaced(name, post);
  }

  /** The pass for another name keeps the escaped head and goes on behind
      it. */
  lemma EscapeOverOtherHead(pre: string, name: string, other: string, post: string)
    requires SpanName(name) && SpanName(other) && name != other && '\\' !in pre
    ensures Replace(pre + ("`\\!" + name) + post, "`\\!" + other, "`!" + other)
         == pre + ("`\\!" + name) + Replace(post, "`\\!" + other, "`!" + other)
  {
    var h := "`\\!" + name;
    assert pre + h + post == pre + (h + post);
    EscapeSkipsPlain(pre, h + post, other);
    EscapeHeadKept(name, other, post);
  }

  /** Every pass of `Unescape` goes over a head that has already lost its
      backslash. */
  lemma EscapeOverOpen(pre: string, name: string, other: string, post: string)
    requires SpanName(name) && SpanName(other) && '\\' !in pre
    ensures Replace(pre + ("`!" + name) + post, "`\\!" + other, "`!" + other)
         == pre + ("`!" + name) + Replace(post, "`\\!" + other, "`!" + other)
  {
    var a, pat := pre + ("`!" + name), "`\\!" + other;
    SpanNameChars(name);
    forall i | 0 <= i < |a| && (a + post)[i] == pat[0] && i + 1 < |a + post|
      ensures (a + post)[i + 1] != pat[1]
    {
      assert (a + post)[i] == a[i];
      if i + 1 < |pre| {
        assert (a + post)[i + 1] == pre[i + 1];
      } else if i + 1 == |pre| {
        assert (a + post)[i + 1] == '`';
      } else if i == |pre| {
        assert (a + post)[i + 1] == '!';
      }
    }
    PairSkip(a, post, pat, "`!" + other);
  }

  /** The patterns of `Unescape`, spelled as head plus name. */
  lemma UnescapePatterns()
    ensures "`\\!elapsed" == "`\\!" + "elapsed" && "`!elapsed" == "`!" + "elapsed"
    ensures "`\\!now" == "`\\!" + "now" && "`!now" == "`!" + "now"
    ensures "`\\!today" == "`\\!" + "today" && "`!today" == "`!" + "today"
  {
  }

  /** Un-escaping works head by head: an escaped head behind text with no
      backslash loses exactly one backslash, and the rest of the line is
      un-escaped on its own. With `UnescapeNoBackslash` this fixes the
      result on every line whose backslashes all open escaped heads. */
  lemma UnescapeHead(pre: string, name: string, post: string)
    requires SpanName(name) && '\\' !in pre
    ensures Unescape(pre + ("`\\!" + name) + post) == pre + ("`!" + name) + Unescape(post)
  {
    UnescapePatterns();
    var x1 := Replace(post, "`\\!elapsed", "`!elapsed");
    var x2 := Replace(x1, "`\\!now", "`!now");
    if name == "elapsed" {
      EscapeOverOwnHead(pre, name, post);
      EscapeOverOpen(pre, name, "now", x1);
      EscapeOverOpen(pre, name, "today", x2);
    } else if name == "now" {
      EscapeOverOtherHead(pre, name, "elapsed", post);
      EscapeOverOwnHead(pre, name, x1);
      EscapeOverOpen(pre, name, "today", x2);
    } else {
      EscapeOverOtherHead(pre, name, "elapsed", post);
      EscapeOverOtherHead(pre, name, "now", x1);
      EscapeOverOwnHead(pre, name, x2);
    }
  }

  /** Text without a backslash holds no escaped head: un-escaping leaves it
      alone. */
  lemma UnescapeNoBackslash(s: string)
    requires '\\' !in s
    ensures Unescape(s) == s
  {
    assert "`\\!elapsed"[1] == '\\' && "`\\!now"[1] == '\\' && "`\\!today"[1] == '\\';
    NoCharNoContains(s, "`\\!elapsed", 1);
    NoCharNoContains(s, "`\\!now", 1);
    NoCharNoContains(s, "`\\!today", 1);
    ReplaceAbsent(s, "`\\!elapsed", "`!elapsed");
    ReplaceAbsent(s, "`\\!now", "`!now");
    ReplaceAbsent(s, "`\\!today", "`!today");
  }

  /** The elapsed text is inert. */
  lemma ElapsedInert(secs: int)
    ensures Inert(Duration.HumanDuration(secs))
  {
    Duration.HumanDurationAlphabet(secs);
  }
}

=== FILE: text.dfy ===
/** String primitives used by the directive engine: prefix and suffix
    tests, substring search, Rust's `str::replace`, `split_once` and the
    concatenation performed by `collect::<String>()`. Strings are
    sequences of Unicode scalar values, as Rust's `&str` is. */
module Text {
  import opened Wrappers

  predicate StartsWith(s: string, p: string)
  {
    |p| <= |s| && s[..|p|] == p
  }

  predicate EndsWith(s: string, p: string)
  {
    |p| <= |s| && s[|s| - |p|..] == p
  }

  /** `s.contains(p)`, written as a left-to-right search. */
  predicate Contains(s: string, p: string)
    decreases |s|
  {
    StartsWith(s, p) || (|s| > 0 && Contains(s[1..], p))
  }

  /** Rust's `s.replace(pat, rep)`: every leftmost, non-overlapping
      occurrence of `pat` is replaced, scanning left to right. */
  function Replace(s: string, pat: string, rep: string): (r: string)
    requires |pat| > 0
    decreases |s|
  {
    if |s| == 0 then []
    else if StartsWith(s, pat) then rep + Replace(s[|pat|..], pat, rep)
    else [s[0]] + Replace(s[1..], pat, rep)
  }

  /** Index of the first occurrence of `c`, if any. */
  function IndexOf(s: string, c: char): (r: Option<nat>)
    ensures r.None? <==> c !in s
    ensures r.Some? ==> r.value < |s| && s[r.value] == c && c !in s[..r.value]
    decreases |s|
  {
    if |s| == 0 then None
    else if s[0] == c then Some(0)
    else match IndexOf(s[1..], c)
      case None => None
      case Some(i) => Some(i + 1)
  }

  /** The first occurrence is the only position holding `c` with no `c` before it. */
  lemma {:induction false} IndexOfFirst(s: string, c: char, i: nat)
    requires i < |s| && s[i] == c && c !in s[..i]
    ensures IndexOf(s, c) == Some(i)
    decreases i
  {
    if i > 0 {
      assert s[0] == s[..i][0];
      assert s[1..][..i - 1] == s[1..i];
      assert c !in s[1..i] by {
        forall m | 0 <= m < i - 1 ensures s[1..i][m] != c { assert s[1..i][m] == s[..i][m + 1]; }
      }
      IndexOfFirst(s[1..], c, i - 1);
    }
  }

  /** Rust's `s.split_once(c)`: the parts before and after the first `c`. */
  function SplitOnce(s: string, c: char): (r: Option<(string, string)>)
    ensures r.None? <==> c !in s
    ensures r.Some? ==> s == r.value.0 + [c] + r.value.1 && c !in r.value.0
  {
    match IndexOf(s, c)
    case None => None
    case Some(i) =>
      assert s == s[..i] + [c] + s[i + 1..];
      Some((s[..i], s[i + 1..]))
  }

  /** `collect::<String>()` over a vector of strings: plain concatenation,
      with no separator. */
  function Concat(parts: seq<string>): (r: string)
    decreases |parts|
  {
    if |parts| == 0 then [] else Concat(parts[..|parts| - 1]) + parts[|parts| - 1]
  }

  lemma ConcatAppend(parts: seq<string>, last: string)
    ensures Concat(parts + [last]) == Concat(parts) + last
  {
    assert (parts + [last])[..|parts|] == parts;
  }

  lemma ConcatSingle(part: string)
    ensures Concat([part]) == part
  {
    assert [part][..0] == [];
  }

  /** Concatenating two lists of strings one after the other. */
  lemma {:induction false} ConcatSplit(a: seq<string>, b: seq<string>)
    ensures Concat(a + b) == Concat(a) + Concat(b)
    decreases |b|
  {
    if |b| == 0 {
      assert a + b == a;
    } else {
      var c := b[..|b| - 1];
      assert (a + b)[..|a + b| - 1] == a + c;
      ConcatSplit(a, c);
    }
  }

  lemma {:induction false} ContainsAt(s: string, p: string, i: nat)
    requires i + |p| <= |s| && s[i..i + |p|] == p
    ensures Contains(s, p)
    decreases i
  {
    if i > 0 {
      assert s[1..][i - 1..i - 1 + |p|] == s[i..i + |p|];
      ContainsAt(s[1..], p, i - 1);
    }
  }

  /** A string containing no character of `p`'s first character does not contain `p`. */
  lemma {:induction false} NoFirstCharNoContains(s: string, p: string)
    requires |p| > 0 && p[0] !in s
    ensures !Contains(s, p)
    decreases |s|
  {
    if |s| > 0 {
      assert s[0] != p[0];
      assert p[0] !in s[1..] by {
        forall k | 0 <= k < |s[1..]| ensures s[1..][k] != p[0] { assert s[1..][k] == s[k + 1]; }
      }
      NoFirstCharNoContains(s[1..], p);
    }
  }

  /** Text that never holds `p`'s first character adds no occurrence in
      front of `b`. */
  lemma {:induction false} ContainsPast(a: string, b: string, p: string)
    requires |p| > 0 && p[0] !in a
    ensures Contains(a + b, p) == Contains(b, p)
    decreases |a|
  {
    if |a| > 0 {
      DiffersAt(a + b, p, 0);
      assert (a + b)[1..] == a[1..] + b;
      assert p[0] !in a[1..] by {
        forall k | 0 <= k < |a[1..]| ensures a[1..][k] != p[0] { assert a[1..][k] == a[k + 1]; }
      }
      ContainsPast(a[1..], b, p);
    } else {
      assert a + b == b;
    }
  }

  /** A string lacking one of `p`'s characters does not contain `p`. */
  lemma {:induction false} NoCharNoContains(s: string, p: string, k: nat)
    requires k < |p| && p[k] !in s
    ensures !Contains(s, p)
    decreases |s|
  {
    if |s| > 0 {
      if |p| <= |s| {
        assert s[..|p|][k] == s[k];
      }
      assert p[k] !in s[1..] by {
        forall i | 0 <= i < |s[1..]| ensures s[1..][i] != p[k] { assert s[1..][i] == s[i + 1]; }
      }
      NoCharNoContains(s[1..], p, k);
    }
  }

  /** A prefix test fails as soon as one position differs. */
  lemma DiffersAt(s: string, p: string, k: nat)
    requires k < |p| && (|s| < |p| || (k < |s| && s[k] != p[k]))
    ensures !StartsWith(s, p)
  {
    if |p| <= |s| {
      assert s[..|p|][k] == s[k];
    }
  }

  /** A pattern of two or more characters that starts with `c` cannot
      occur in text whose only `c` is its last character. */
  lemma {:induction false} NotContainsBeforeLast(m: string, c: char, p: string)
    requires |p| >= 2 && p[0] == c && c !in m
    ensures !Contains(m + [c], p)
    decreases |m|
  {
    var t := m + [c];
    if |m| == 0 {
      assert !StartsWith(t, p);
      assert t[1..] == [];
    } else {
      assert t[0] == m[0];
      DiffersAt(t, p, 0);
      assert t[1..] == m[1..] + [c];
      assert c !in m[1..] by {
        forall i | 0 <= i < |m[1..]| ensures m[1..][i] != c { assert m[1..][i] == m[i + 1]; }
      }
      NotContainsBeforeLast(m[1..], c, p);
    }
  }

  /** Text `c m c` with no `c` inside `m`: a pattern starting with `c`
      occurs only if it is a prefix. */
  lemma NotContainsDelimited(m: string, c: char, p: string)
    requires |p| >= 2 && p[0] == c && c !in m && !StartsWith([c] + m + [c], p)
    ensures !Contains([c] + m + [c], p)
  {
    var s := [c] + m + [c];
    assert s[1..] == m + [c];
    NotContainsBeforeLast(m, c, p);
  }

  /** Text `c m` with no `c` inside `m`: the same, for an unclosed head. */
  lemma NotContainsOpen(m: string, c: char, p: string)
    requires |p| >= 1 && p[0] == c && c !in m && !StartsWith([c] + m, p)
    ensures !Contains([c] + m, p)
  {
    var s := [c] + m;
    assert s[1..] == m;
    NoFirstCharNoContains(m, p);
  }

  /** Replacing a pattern that does not occur leaves the string unchanged. */
  lemma {:induction false} ReplaceAbsent(s: string, pat: string, rep: string)
    requires |pat| > 0 && !Contains(s, pat)
    ensures Replace(s, pat, rep) == s
    decreases |s|
  {
    if |s| > 0 {
      ReplaceAbsent(s[1..], pat, rep);
      assert [s[0]] + s[1..] == s;
    }
  }

  /** Text in which no occurrence of the pattern begins is copied as it is,
      and replacing resumes right after it. */
  lemma {:induction false} ReplaceSkip(a: string, b: string, pat: string, rep: string)
    requires |pat| > 0
    requires forall i :: 0 <= i < |a| ==> !StartsWith((a + b)[i..], pat)
    ensures Replace(a + b, pat, rep) == a + Replace(b, pat, rep)
    decreases |a|
  {
    if |a| > 0 {
      var s := a + b;
      assert !StartsWith(s[0..], pat);
      assert s[0..] == s;
      assert s[1..] == a[1..] + b;
      forall i | 0 <= i < |a[1..]| ensures !StartsWith((a[1..] + b)[i..], pat) {
        assert (a[1..] + b)[i..] == s[i + 1..];
      }
      ReplaceSkip(a[1..], b, pat, rep);
      assert [a[0]] + a[1..] == a;
    } else {
      assert a + b == b;
    }
  }

  /** A pattern of two or more characters cannot begin where its first
      character is not followed by its second. */
  lemma PairSkip(a: string, b: string, pat: string, rep: string)
    requires |pat| >= 2
    requires forall i :: 0 <= i < |a| && (a + b)[i] == pat[0] && i + 1 < |a + b| ==> (a + b)[i + 1] != pat[1]
    ensures Replace(a + b, pat, rep) == a + Replace(b, pat, rep)
  {
    forall i | 0 <= i < |a| ensures !StartsWith((a + b)[i..], pat) {
      var s := (a + b)[i..];
      if s[0] != pat[0] || |s| < 2 {
        DiffersAt(s, pat, 0);
      } else {
        assert s[1] == (a + b)[i + 1];
        DiffersAt(s, pat, 1);
      }
    }
    ReplaceSkip(a, b, pat, rep);
  }

  /** The replacement text lands exactly where the leftmost occurrence was:
      when no occurrence begins inside `pre`, the one right after it is
      replaced and scanning resumes behind it. */
  lemma ReplaceFirst(pre: string, pat: string, rep: string, post: string)
    requires |pat| > 0
    requires forall i :: 0 <= i < |pre| ==> !StartsWith((pre + pat + post)[i..], pat)
    ensures Replace(pre + pat + post, pat, rep) == pre + rep + Replace(post, pat, rep)
  {
    var t := pat + post;
    assert pre + pat + post == pre + t;
    ReplaceSkip(pre, t, pat, rep);
    assert t[..|pat|] == pat && t[|pat|..] == post;
  }
}

=== FILE: tokens.dfy ===
/** The span directives line by line: what each token form prints, how
    escaping protects a token, which malformed tokens make the loop of
    `process_line` spin forever, and how substituted text is dispatched
    again. Timestamps are whatever the `Clock` says; only their being
    inert text (no backtick, backslash or `!`) is assumed. */
module Tokens {
  import opened Text
  import opened Spans
  import opened Dispatch
  import Duration

  /** `` `m` `` with no backtick inside `m` holds a backtick-headed pattern
      only as a prefix, and the prefix test fails at position `k`. */
  lemma Absent(m: string, p: string, k: nat)
    requires |p| >= 2 && p[0] == '`' && '`' !in m && k < |p|
    requires |m| + 2 < |p| || (k < |m| + 2 && (['`'] + m + ['`'])[k] != p[k])
    ensures !Contains(['`'] + m + ['`'], p)
  {
    DiffersAt(['`'] + m + ['`'], p, k);
    NotContainsDelimited(m, '`', p);
  }

  /** The same for an unclosed `` `m ``. */
  lemma AbsentOpen(m: string, p: string, k: nat)
    requires |p| >= 2 && p[0] == '`' && '`' !in m && k < |p|
    requires |m| + 1 < |p| || (k < |m| + 1 && (['`'] + m)[k] != p[k])
    ensures !Contains(['`'] + m, p)
  {
    DiffersAt(['`'] + m, p, k);
    NotContainsOpen(m, '`', p);
  }

  /** A backtick-delimited pattern occurs in `` `m` `` (no backtick in `m`)
      only as the whole text. */
  lemma OnlyWhole(m: string, p: string)
    requires '`' !in m && |p| >= 2 && p[0] == '`' && p[|p| - 1] == '`'
    requires ['`'] + m + ['`'] != p
    ensures !Contains(['`'] + m + ['`'], p)
  {
    NotContainsDelimited(m, '`', p);
  }

  /** A backtick-delimited pattern never occurs in an unclosed `` `m ``. */
  lemma NeverInOpen(m: string, p: string)
    requires '`' !in m && |p| >= 2 && p[0] == '`' && p[|p| - 1] == '`'
    ensures !Contains(['`'] + m, p)
  {
    NotContainsOpen(m, '`', p);
  }

  /** The pattern is the whole line: it is replaced by `rep`. */
  lemma ReplaceWhole(pat: string, rep: string)
    requires |pat| > 0
    ensures Replace(pat, pat, rep) == rep
  {
    assert StartsWith(pat, pat);
    assert pat[|pat|..] == [];
  }

  /** A backtick-led line whose span pass yields inert text prints that text. */
  lemma Substitutes(clock: Clock, line: string, out: string)
    requires |line| > 0 && line[0] == '`' && HasSpan(line) && SpanPass(clock, line) == out && Inert(out)
    ensures Step(clock, [], line, 1) == Done([], [Print(out, true)])
  {
    DiffersAt(line, RunPrefix, 0);
    DiffersAt(line, IncPrefix, 0);
    PassToInert(clock, line, 0);
  }

  /** A line that reaches the span branches and that no span pass rewrites
      makes the loop spin forever: whatever the fuel, the outcome is `Hang`. */
  lemma {:induction false} FixedPointHangs(clock: Clock, line: string, fuel: nat)
    requires SpanCase(line) && SpanPass(clock, line) == line
    ensures Step(clock, [], line, fuel) == Hang
    decreases fuel
  {
    if fuel > 0 {
      SpanStep(clock, line, fuel);
      FixedPointHangs(clock, line, fuel - 1);
    }
  }

  /** A line with a `now` head and no `elapsed` head takes the `now` branch. */
  lemma NowBranch(clock: Clock, line: string)
    requires !Contains(line, "`!elapsed") && StartsWith(line, "`!now")
    ensures HasSpan(line) && SpanPass(clock, line) == NowPass(clock, line)
  {
  }

  /** A line with a `today` head and neither other head takes the `today`
      branch. */
  lemma TodayBranch(clock: Clock, line: string)
    requires !Contains(line, "`!elapsed") && !Contains(line, "`!now") && StartsWith(line, "`!today")
    ensures HasSpan(line) && SpanPass(clock, line) == TodayPass(clock, line)
  {
  }

  // ---------------------------------------------------------------------
  // The literal forms
  //
  // Here and in the token lemmas below, the line is a parameter required
  // to equal its literal rather than the literal itself: the scanners are
  // then unfolded on a variable, and the literal is consulted only where a
  // proof step names it.

  lemma NowPassResult(clock: Clock, line: string)
    requires line == ['`'] + "!now" + ['`'] && Inert(clock.now)
    ensures HasSpan(line) && SpanPass(clock, line) == clock.now
  {
    Absent("!now", "`!elapsed", 2);
    assert StartsWith(line, "`!now");
    ReplaceWhole(line, clock.now);
    InertReplace(clock.now, "`!now:local`", clock.nowLocal);
    InertReplace(clock.now, "`!now:x`", clock.nowX);
    ScanNoBacktick(clock, Now, clock.now);
  }

  /** `` `!now` `` prints the RFC 3339 timestamp. */
  lemma NowToken(clock: Clock, line: string)
    requires line == ['`'] + "!now" + ['`']
    requires Inert(clock.now)
    ensures Step(clock, [], line, 1) == Done([], [Print(clock.now, true)])
  {
    NowPassResult(clock, line);
    Substitutes(clock, line, clock.now);
  }

  lemma NowLocalSelect(line: string)
    requires line == ['`'] + "!now:local" + ['`']
    ensures !Contains(line, "`!elapsed") && StartsWith(line, "`!now") && !Contains(line, "`!now`")
  {
    Absent("!now:local", "`!elapsed", 2);
    assert StartsWith(line, "`!now");
    Absent("!now:local", "`!now`", 5);
  }

  lemma NowLocalPassResult(clock: Clock, line: string)
    requires line == ['`'] + "!now:local" + ['`'] && Inert(clock.nowLocal)
    ensures HasSpan(line) && SpanPass(clock, line) == clock.nowLocal
  {
    NowLocalSelect(line);
    NowBranch(clock, line);
    var pat := "`!now:local`";
    assert line == pat;
    ReplaceAbsent(line, "`!now`", clock.now);
    ReplaceWhole(pat, clock.nowLocal);
    assert Replace(Replace(line, "`!now`", clock.now), pat, clock.nowLocal) == clock.nowLocal;
    InertReplace(clock.nowLocal, "`!now:x`", clock.nowX);
    ScanNoBacktick(clock, Now, clock.nowLocal);
  }

  /** `` `!now:local` `` prints the local-time rendering. */
  lemma NowLocalToken(clock: Clock, line: string)
    requires line == ['`'] + "!now:local" + ['`']
    requires Inert(clock.nowLocal)
    ensures Step(clock, [], line, 1) == Done([], [Print(clock.nowLocal, true)])
  {
    NowLocalPassResult(clock, line);
    Substitutes(clock, line, clock.nowLocal);
  }

  lemma NowXPassResult(clock: Clock, line: string)
    requires line == ['`'] + "!now:x" + ['`'] && Inert(clock.nowX)
    ensures HasSpan(line) && SpanPass(clock, line) == clock.nowX
  {
    Absent("!now:x", "`!elapsed", 2);
    assert StartsWith(line, "`!now");
    Absent("!now:x", "`!now`", 5);
    Absent("!now:x", "`!now:local`", 6);
    ReplaceAbsent(line, "`!now`", clock.now);
    ReplaceAbsent(line, "`!now:local`", clock.nowLocal);
    ReplaceWhole(line, clock.nowX);
    ScanNoBacktick(clock, Now, clock.nowX);
  }

  /** `` `!now:x` `` prints the `x` format. */
  lemma NowXToken(clock: Clock, line: string)
    requires line == ['`'] + "!now:x" + ['`']
    requires Inert(clock.nowX)
    ensures Step(clock, [], line, 1) == Done([], [Print(clock.nowX, true)])
  {
    NowXPassResult(clock, line);
    Substitutes(clock, line, clock.nowX);
  }

  lemma TodayPassResult(clock: Clock, line: string)
    requires line == ['`'] + "!today" + ['`'] && Inert(clock.today)
    ensures HasSpan(line) && SpanPass(clock, line) == clock.today
  {
    Absent("!today", "`!elapsed", 2);
    Absent("!today", "`!now", 2);
    assert StartsWith(line, "`!today");
    ReplaceWhole(line, clock.today);
    InertReplace(clock.today, "`!today:local`", clock.todayLocal);
    ScanNoBacktick(clock, Today, clock.today);
  }

  /** `` `!today` `` prints the UTC date. */
  lemma TodayToken(clock: Clock, line: string)
    requires line == ['`'] + "!today" + ['`']
    requires Inert(clock.today)
    ensures Step(clock, [], line, 1) == Done([], [Print(clock.today, true)])
  {
    TodayPassResult(clock, line);
    Substitutes(clock, line, clock.today);
  }

  lemma TodayLocalSelect(line: string)
    requires line == ['`'] + "!today:local" + ['`']
    ensures !Contains(line, "`!elapsed") && !Contains(line, "`!now") && StartsWith(line, "`!today")
    ensures !Contains(line, "`!today`")
  {
    Absent("!today:local", "`!elapsed", 2);
    Absent("!today:local", "`!now", 2);
    assert StartsWith(line, "`!today");
    Absent("!today:local", "`!today`", 7);
  }

  lemma TodayLocalPassResult(clock: Clock, line: string)
    requires line == ['`'] + "!today:local" + ['`'] && Inert(clock.todayLocal)
    ensures HasSpan(line) && SpanPass(clock, line) == clock.todayLocal
  {
    TodayLocalSelect(line);
    TodayBranch(clock, line);
    var pat := "`!today:local`";
    assert line == pat;
    ReplaceAbsent(line, "`!today`", clock.today);
    ReplaceWhole(pat, clock.todayLocal);
    assert Replace(Replace(line, "`!today`", clock.today), pat, clock.todayLocal) == clock.todayLocal;
    ScanNoBacktick(clock, Today, clock.todayLocal);
  }

  /** `` `!today:local` `` prints the local date. */
  lemma TodayLocalToken(clock: Clock, line: string)
    requires line == ['`'] + "!today:local" + ['`']
    requires Inert(clock.todayLocal)
    ensures Step(clock, [], line, 1) == Done([], [Print(clock.todayLocal, true)])
  {
    TodayLocalPassResult(clock, line);
    Substitutes(clock, line, clock.todayLocal);
  }

  lemma ElapsedPassResult(clock: Clock, line: string)
    requires line == ['`'] + "!elapsed" + ['`']
    ensures HasSpan(line) && SpanPass(clock, line) == Duration.HumanDuration(clock.elapsed)
  {
    assert StartsWith(line, "`!elapsed");
    ReplaceWhole(line, Duration.HumanDuration(clock.elapsed));
  }

  /** `` `!elapsed` `` prints the elapsed time; no assumption is needed,
      since that text is always inert. */
  lemma ElapsedToken(clock: Clock, line: string)
    requires line == ['`'] + "!elapsed" + ['`']
    ensures Step(clock, [], line, 1) == Done([], [Print(Duration.HumanDuration(clock.elapsed), true)])
  {
    ElapsedPassResult(clock, line);
    ElapsedInert(clock.elapsed);
    Substitutes(clock, line, Duration.HumanDuration(clock.elapsed));
  }

  // ---------------------------------------------------------------------
  // The regex forms

  /** The three literal `now` forms are absent from `` `!now:c` `` unless
      the capture `c` is exactly `local` or `x`; the whole pass is then the
      regex scan. */
  lemma NowRegexOnly(clock: Clock, cap: string, line: string)
    requires '`' !in cap && cap != "local" && cap != "x"
    requires line == ['`'] + ("!now:" + cap) + ['`']
    ensures line == Head(Now) + cap + "`"
    ensures NowPass(clock, line) == ScanTokens(clock, Now, line)
  {
    assert Head(Now) == ['`'] + "!now:";
    NowLiteralsAbsent(cap, line);
    ReplaceAbsent(line, "`!now`", clock.now);
    ReplaceAbsent(line, "`!now:local`", clock.nowLocal);
    ReplaceAbsent(line, "`!now:x`", clock.nowX);
  }

  /** The literal forms `` `!now` ``, `` `!now:local` `` and `` `!now:x` ``
      are absent from `` `!now:c` `` when `c` is neither `local` nor `x`. */
  lemma NowLiteralsAbsent(cap: string, line: string)
    requires '`' !in cap && cap != "local" && cap != "x"
    requires line == ['`'] + ("!now:" + cap) + ['`']
    ensures !Contains(line, "`!now`") && !Contains(line, "`!now:local`") && !Contains(line, "`!now:x`")
  {
    CaptureFree("!now:", cap);
    Absent("!now:" + cap, "`!now`", 5);
    LiteralAbsent("!now:", cap, "local", line);
    assert ['`'] + ("!now:" + "local") + ['`'] == "`!now:local`";
    LiteralAbsent("!now:", cap, "x", line);
    assert ['`'] + ("!now:" + "x") + ['`'] == "`!now:x`";
  }

  /** The same for the `today` family: `` `!today` `` and `` `!today:local` ``
      are absent from `` `!today:c` `` unless `c` is `local`. */
  lemma TodayRegexOnly(clock: Clock, cap: string, line: string)
    requires '`' !in cap && cap != "local"
    requires line == ['`'] + ("!today:" + cap) + ['`']
    ensures line == Head(Today) + cap + "`"
    ensures TodayPass(clock, line) == ScanTokens(clock, Today, line)
  {
    assert Head(Today) == ['`'] + "!today:";
    TodayLiteralsAbsent(cap, line);
    ReplaceAbsent(line, "`!today`", clock.today);
    ReplaceAbsent(line, "`!today:local`", clock.todayLocal);
  }

  lemma TodayLiteralsAbsent(cap: string, line: string)
    requires '`' !in cap && cap != "local"
    requires line == ['`'] + ("!today:" + cap) + ['`']
    ensures !Contains(line, "`!today`") && !Contains(line, "`!today:local`")
  {
    CaptureFree("!today:", cap);
    Absent("!today:" + cap, "`!today`", 7);
    LiteralAbsent("!today:", cap, "local", line);
    assert ['`'] + ("!today:" + "local") + ['`'] == "`!today:local`";
  }

  lemma CaptureFree(pre: string, cap: string)
    requires '`' !in pre && '`' !in cap
    ensures '`' !in pre + cap
  {
    var m := pre + cap;
    assert forall i :: 0 <= i < |m| ==> m[i] == if i < |pre| then pre[i] else cap[i - |pre|];
  }

  /** `` `pre c` `` holds `` `pre n` `` only when `c` is `n`. */
  lemma LiteralAbsent(pre: string, cap: string, name: string, line: string)
    requires '`' !in pre && '`' !in cap && cap != name
    requires line == ['`'] + (pre + cap) + ['`']
    ensures !Contains(line, ['`'] + (pre + name) + ['`'])
  {
    CaptureFree(pre, cap);
    LiteralOtherThan(pre, cap, name);
    OnlyWhole(pre + cap, ['`'] + (pre + name) + ['`']);
  }

  lemma LiteralOtherThan(pre: string, cap: string, name: string)
    requires cap != name
    ensures ['`'] + (pre + cap) + ['`'] != ['`'] + (pre + name) + ['`']
  {
    var s, p := ['`'] + (pre + cap) + ['`'], ['`'] + (pre + name) + ['`'];
    assert s[1 + |pre|..|s| - 1] == cap;
    assert p[1 + |pre|..|p| - 1] == name;
  }

  /** A capture `zone:pattern` holds a colon, so it is neither `local` nor `x`. */
  lemma PatternCapture(zone: string, pattern: string)
    requires '`' !in zone && '`' !in pattern
    ensures var cap := zone + ":" + pattern;
      '`' !in cap && cap != "local" && cap != "x"
  {
    var cap := zone + ":" + pattern;
    assert forall i :: 0 <= i < |cap| ==> cap[i] == if i < |zone| then zone[i] else if i == |zone| then ':' else pattern[i - |zone| - 1];
    assert cap[|zone|] == ':';
  }

  /** `` `!now:zone:pattern` `` for any zone and pattern. */
  lemma NowPatternPassResult(clock: Clock, zone: string, pattern: string, line: string)
    requires ':' !in zone && '`' !in zone && '`' !in pattern
    requires line == ['`'] + ("!now:" + (zone + ":" + pattern)) + ['`']
    ensures HasSpan(line) && SpanPass(clock, line) == clock.formatIn(zone, pattern)
  {
    var cap := zone + ":" + pattern;
    PatternCapture(zone, pattern);
    assert line[2] == 'n';
    Absent("!now:" + cap, "`!elapsed", 2);
    assert StartsWith(line, "`!now");
    NowRegexOnly(clock, cap, line);
    ScanToken(clock, Now, cap, "");
    assert Head(Now) + cap + "`" + "" == line;
    CaptureWithPattern(clock, Now, zone, pattern);
  }

  /** `` `!now:zone` `` for any zone other than `local` and `x`. */
  lemma NowZoneOnlyPassResult(clock: Clock, zone: string, line: string)
    requires ':' !in zone && '`' !in zone && zone != "local" && zone != "x"
    requires line == ['`'] + ("!now:" + zone) + ['`']
    ensures HasSpan(line) && SpanPass(clock, line) == clock.defaultIn(zone)
  {
    assert line[2] == 'n';
    CaptureFree("!now:", zone);
    Absent("!now:" + zone, "`!elapsed", 2);
    assert StartsWith(line, "`!now");
    NowRegexOnly(clock, zone, line);
    ScanToken(clock, Now, zone, "");
    assert Head(Now) + zone + "`" + "" == line;
    CaptureZoneOnly(clock, zone);
  }

  /** `` `!today:zone:pattern` `` for any zone and pattern. */
  lemma TodayPatternPassResult(clock: Clock, zone: string, pattern: string, line: string)
    requires ':' !in zone && '`' !in zone && '`' !in pattern
    requires line == ['`'] + ("!today:" + (zone + ":" + pattern)) + ['`']
    ensures HasSpan(line) && SpanPass(clock, line) == clock.formatIn(zone, pattern)
  {
    var cap := zone + ":" + pattern;
    PatternCapture(zone, pattern);
    CaptureFree("!today:", cap);
    assert line[2] == 't';
    Absent("!today:" + cap, "`!elapsed", 2);
    Absent("!today:" + cap, "`!now", 2);
    assert StartsWith(line, "`!today");
    TodayRegexOnly(clock, cap, line);
    ScanToken(clock, Today, cap, "");
    assert Head(Today) + cap + "`" + "" == line;
    CaptureWithPattern(clock, Today, zone, pattern);
  }

  /** `` `!today:zone` `` for any zone other than `local`. */
  lemma TodayZoneOnlyPassResult(clock: Clock, zone: string, line: string)
    requires ':' !in zone && '`' !in zone && zone != "local"
    requires line == ['`'] + ("!today:" + zone) + ['`']
    ensures HasSpan(line) && SpanPass(clock, line) == clock.formatIn(zone, DateFormat)
  {
    CaptureFree("!today:", zone);
    assert line[2] == 't';
    Absent("!today:" + zone, "`!elapsed", 2);
    Absent("!today:" + zone, "`!now", 2);
    assert StartsWith(line, "`!today");
    TodayRegexOnly(clock, zone, line);
    ScanToken(clock, Today, zone, "");
    assert Head(Today) + zone + "`" + "" == line;
    CaptureZoneOnly(clock, zone);
  }

  // ---------------------------------------------------------------------
  // Tokens inside text

  /** A `` `!``-led pattern occurs in a token `` `m` `` set between inert
      texts exactly when it occurs at the token's opening backtick: inert
      text holds no backtick, and the closing backtick is not followed by
      `!`. */
  lemma AtTokenOnly(pre: string, m: string, post: string, p: string)
    requires Inert(pre) && Inert(post) && '`' !in m
    requires |p| >= 2 && p[0] == '`' && p[1] == '!'
    ensures Contains(pre + (['`'] + m + ['`']) + post, p) <==> StartsWith(['`'] + m + ['`'] + post, p)
  {
    var tok := ['`'] + m + ['`'];
    var t, u := tok + post, ['`'] + post;
    assert pre + tok + post == pre + t;
    ContainsPast(pre, t, p);
    assert t[1..] == m + u;
    ContainsPast(m, u, p);
    if |post| > 0 {
      assert post[0] in post;
    }
    DiffersAt(u, p, 1);
    assert u[1..] == post;
    NoFirstCharNoContains(post, p);
  }

  /** A pattern with no backtick strictly inside it starts `tok + post`
      only within `tok`, when `tok` ends with a backtick. */
  lemma StartsWithinToken(tok: string, post: string, p: string)
    requires |tok| >= 2 && tok[|tok| - 1] == '`'
    requires |p| >= 2 && '`' !in p[1..|p| - 1]
    ensures StartsWith(tok + post, p) <==> StartsWith(tok, p)
  {
    if |p| <= |tok| {
      assert (tok + post)[..|p|] == tok[..|p|];
    } else {
      assert p[|tok| - 1] != '`' by {
        assert p[1..|p| - 1][|tok| - 2] == p[|tok| - 1];
      }
      DiffersAt(tok + post, p, |tok| - 1);
    }
  }

  /** The token's own verdict on a pattern carries over to the line. */
  lemma InTextAsAlone(pre: string, m: string, post: string, p: string)
    requires Inert(pre) && Inert(post) && '`' !in m
    requires |p| >= 2 && p[0] == '`' && p[1] == '!' && '`' !in p[1..|p| - 1]
    ensures StartsWith(['`'] + m + ['`'], p) ==> Contains(pre + (['`'] + m + ['`']) + post, p)
    ensures !Contains(['`'] + m + ['`'], p) ==> !Contains(pre + (['`'] + m + ['`']) + post, p)
  {
    AtTokenOnly(pre, m, post, p);
    StartsWithinToken(['`'] + m + ['`'], post, p);
  }

  /** The regex pass over a token set between inert texts rewrites the
      token alone. */
  lemma ScanInText(clock: Clock, k: Kind, pre: string, cap: string, post: string)
    requires Inert(pre) && Inert(post) && '`' !in cap
    ensures ScanTokens(clock, k, pre + (Head(k) + cap + "`") + post)
         == pre + Capture(clock, k, cap) + post
  {
    var t := Head(k) + cap + "`" + post;
    assert pre + (Head(k) + cap + "`") + post == pre + t;
    NoBacktickNoMatch(k, pre, t);
    ScanPlainPrefix(clock, k, pre, t);
    ScanToken(clock, k, cap, post);
    ScanNoBacktick(clock, k, post);
  }

  /** Which heads and literal forms a line holding `` `!now:c` `` in inert
      text contains: the `now` head, and neither the `elapsed` head nor a
      literal `now` form unless `c` is `local` or `x`. */
  lemma NowHeadsInText(pre: string, cap: string, post: string)
    requires Inert(pre) && Inert(post) && '`' !in cap
    ensures var line := pre + (['`'] + ("!now:" + cap) + ['`']) + post;
      !Contains(line, "`!elapsed") && Contains(line, "`!now")
  {
    var m := "!now:" + cap;
    var tok := ['`'] + m + ['`'];
    CaptureFree("!now:", cap);
    assert tok[2] == 'n';
    Absent(m, "`!elapsed", 2);
    InTextAsAlone(pre, m, post, "`!elapsed");
    assert StartsWith(tok, "`!now");
    InTextAsAlone(pre, m, post, "`!now");
  }

  lemma NowLiteralsInText(pre: string, cap: string, post: string)
    requires Inert(pre) && Inert(post) && '`' !in cap && cap != "local" && cap != "x"
    ensures var line := pre + (['`'] + ("!now:" + cap) + ['`']) + post;
      !Contains(line, "`!now`") && !Contains(line, "`!now:local`") && !Contains(line, "`!now:x`")
  {
    var m := "!now:" + cap;
    CaptureFree("!now:", cap);
    NowLiteralsAbsent(cap, ['`'] + m + ['`']);
    InTextAsAlone(pre, m, post, "`!now`");
    InTextAsAlone(pre, m, post, "`!now:local`");
    InTextAsAlone(pre, m, post, "`!now:x`");
  }

  /** `` `!now:c` `` inside a line of inert text, for a capture other than
      the literal forms: the `now` branch is taken and only the token is
      replaced, by the rendering of its capture. */
  lemma NowInText(clock: Clock, pre: string, cap: string, post: string)
    requires Inert(pre) && Inert(post) && '`' !in cap && cap != "local" && cap != "x"
    ensures var line := pre + (['`'] + ("!now:" + cap) + ['`']) + post;
      HasSpan(line) && SpanPass(clock, line) == pre + Capture(clock, Now, cap) + post
  {
    var line := pre + (['`'] + ("!now:" + cap) + ['`']) + post;
    NowHeadsInText(pre, cap, post);
    calc {
      SpanPass(clock, line);
      NowPass(clock, line);
      { NowLiteralsInText(pre, cap, post);
        ReplaceAbsent(line, "`!now`", clock.now);
        ReplaceAbsent(line, "`!now:local`", clock.nowLocal);
        ReplaceAbsent(line, "`!now:x`", clock.nowX); }
      ScanTokens(clock, Now, line);
      { assert line == pre + (Head(Now) + cap + "`") + post; }
      ScanTokens(clock, Now, pre + (Head(Now) + cap + "`") + post);
      { ScanInText(clock, Now, pre, cap, post); }
      pre + Capture(clock, Now, cap) + post;
    }
  }

  /** The `today` counterpart of `NowHeadsInText`. */
  lemma TodayHeadsInText(pre: string, cap: string, post: string)
    requires Inert(pre) && Inert(post) && '`' !in cap
    ensures var line := pre + (['`'] + ("!today:" + cap) + ['`']) + post;
      !Contains(line, "`!elapsed") && !Contains(line, "`!now") && Contains(line, "`!today")
  {
    var m := "!today:" + cap;
    var tok := ['`'] + m + ['`'];
    CaptureFree("!today:", cap);
    assert tok[2] == 't';
    Absent(m, "`!elapsed", 2);
    Absent(m, "`!now", 2);
    InTextAsAlone(pre, m, post, "`!elapsed");
    InTextAsAlone(pre, m, post, "`!now");
    assert StartsWith(tok, "`!today");
    InTextAsAlone(pre, m, post, "`!today");
  }

  lemma TodayLiteralsInText(pre: string, cap: string, post: string)
    requires Inert(pre) && Inert(post) && '`' !in cap && cap != "local"
    ensures var line := pre + (['`'] + ("!today:" + cap) + ['`']) + post;
      !Contains(line, "`!today`") && !Contains(line, "`!today:local`")
  {
    var m := "!today:" + cap;
    CaptureFree("!today:", cap);
    TodayLiteralsAbsent(cap, ['`'] + m + ['`']);
    InTextAsAlone(pre, m, post, "`!today`");
    InTextAsAlone(pre, m, post, "`!today:local`");
  }

  /** The same for `` `!today:c` ``, for a capture other than `local`. */
  lemma TodayInText(clock: Clock, pre: string, cap: string, post: string)
    requires Inert(pre) && Inert(post) && '`' !in cap && cap != "local"
    ensures var line := pre + (['`'] + ("!today:" + cap) + ['`']) + post;
      HasSpan(line) && SpanPass(clock, line) == pre + Capture(clock, Today, cap) + post
  {
    var line := pre + (['`'] + ("!today:" + cap) + ['`']) + post;
    TodayHeadsInText(pre, cap, post);
    calc {
      SpanPass(clock, line);
      TodayPass(clock, line);
      { TodayLiteralsInText(pre, cap, post);
        ReplaceAbsent(line, "`!today`", clock.today);
        ReplaceAbsent(line, "`!today:local`", clock.todayLocal); }
      ScanTokens(clock, Today, line);
      { assert line == pre + (Head(Today) + cap + "`") + post; }
      ScanTokens(clock, Today, pre + (Head(Today) + cap + "`") + post);
      { ScanInText(clock, Today, pre, cap, post); }
      pre + Capture(clock, Today, cap) + post;
    }
  }

  /** `` `!now:zone:pattern` `` anywhere in a line of inert text, as in
      ``Updated `!now:UTC:%F`.``: the token alone is replaced by the
      timestamp formatted in that zone with that pattern. */
  lemma NowPatternInText(clock: Clock, pre: string, zone: string, pattern: string, post: string)
    requires Inert(pre) && Inert(post) && ':' !in zone && '`' !in zone && '`' !in pattern
    ensures var line := pre + (['`'] + ("!now:" + (zone + ":" + pattern)) + ['`']) + post;
      HasSpan(line) && SpanPass(clock, line) == pre + clock.formatIn(zone, pattern) + post
  {
    PatternCapture(zone, pattern);
    NowInText(clock, pre, zone + ":" + pattern, post);
    CaptureWithPattern(clock, Now, zone, pattern);
  }

  /** `` `!now:zone` `` anywhere in a line of inert text, for a zone other
      than `local` and `x`. */
  lemma NowZoneOnlyInText(clock: Clock, pre: string, zone: string, post: string)
    requires Inert(pre) && Inert(post) && ':' !in zone && '`' !in zone && zone != "local" && zone != "x"
    ensures var line := pre + (['`'] + ("!now:" + zone) + ['`']) + post;
      HasSpan(line) && SpanPass(clock, line) == pre + clock.defaultIn(zone) + post
  {
    NowInText(clock, pre, zone, post);
    CaptureZoneOnly(clock, zone);
  }

  /** `` `!today:zone:pattern` `` anywhere in a line of inert text. */
  lemma TodayPatternInText(clock: Clock, pre: string, zone: string, pattern: string, post: string)
    requires Inert(pre) && Inert(post) && ':' !in zone && '`' !in zone && '`' !in pattern
    ensures var line := pre + (['`'] + ("!today:" + (zone + ":" + pattern)) + ['`']) + post;
      HasSpan(line) && SpanPass(clock, line) == pre + clock.formatIn(zone, pattern) + post
  {
    PatternCapture(zone, pattern);
    TodayInText(clock, pre, zone + ":" + pattern, post);
    CaptureWithPattern(clock, Today, zone, pattern);
  }

  /** `` `!today:zone` `` anywhere in a line of inert text, for a zone
      other than `local`. */
  lemma TodayZoneOnlyInText(clock: Clock, pre: string, zone: string, post: string)
    requires Inert(pre) && Inert(post) && ':' !in zone && '`' !in zone && zone != "local"
    ensures var line := pre + (['`'] + ("!today:" + zone) + ['`']) + post;
      HasSpan(line) && SpanPass(clock, line) == pre + clock.formatIn(zone, DateFormat) + post
  {
    TodayInText(clock, pre, zone, post);
    CaptureZoneOnly(clock, zone);
  }

  lemma NowZonePatternPassResult(clock: Clock, line: string)
    requires line == ['`'] + ("!now:" + ("UTC" + ":" + "%Y")) + ['`']
    ensures HasSpan(line) && SpanPass(clock, line) == clock.formatIn("UTC", "%Y")
  {
    NowPatternPassResult(clock, "UTC", "%Y", line);
  }

  /** `` `!now:UTC:%Y` `` formats in zone `UTC` with pattern `%Y`. */
  lemma NowZonePatternToken(clock: Clock, line: string)
    requires line == ['`'] + ("!now:" + ("UTC" + ":" + "%Y")) + ['`']
    requires Inert(clock.formatIn("UTC", "%Y"))
    ensures Step(clock, [], line, 1) == Done([], [Print(clock.formatIn("UTC", "%Y"), true)])
  {
    NowZonePatternPassResult(clock, line);
    Substitutes(clock, line, clock.formatIn("UTC", "%Y"));
  }

  lemma NowZonePassResult(clock: Clock, line: string)
    requires line == ['`'] + ("!now:" + "UTC") + ['`']
    ensures HasSpan(line) && SpanPass(clock, line) == clock.defaultIn("UTC")
  {
    NowZoneOnlyPassResult(clock, "UTC", line);
  }

  /** `` `!now:UTC` `` uses the default rendering in zone `UTC`. */
  lemma NowZoneToken(clock: Clock, line: string)
    requires line == ['`'] + ("!now:" + "UTC") + ['`']
    requires Inert(clock.defaultIn("UTC"))
    ensures Step(clock, [], line, 1) == Done([], [Print(clock.defaultIn("UTC"), true)])
  {
    NowZonePassResult(clock, line);
    Substitutes(clock, line, clock.defaultIn("UTC"));
  }

  lemma TodayZonePassResult(clock: Clock, line: string)
    requires line == ['`'] + ("!today:" + "UTC") + ['`']
    ensures HasSpan(line) && SpanPass(clock, line) == clock.formatIn("UTC", DateFormat)
  {
    TodayZoneOnlyPassResult(clock, "UTC", line);
  }

  /** `` `!today:UTC` `` formats in zone `UTC` with `%Y-%m-%d`. */
  lemma TodayZoneToken(clock: Clock, line: string)
    requires line == ['`'] + ("!today:" + "UTC") + ['`']
    requires Inert(clock.formatIn("UTC", DateFormat))
    ensures Step(clock, [], line, 1) == Done([], [Print(clock.formatIn("UTC", DateFormat), true)])
  {
    TodayZonePassResult(clock, line);
    Substitutes(clock, line, clock.formatIn("UTC", DateFormat));
  }

  // ---------------------------------------------------------------------
  // Escapes

  /** A backtick-led line with no span head is printed as its un-escaped
      text. */
  lemma EscapedPrinted(clock: Clock, line: string, out: string, fuel: nat)
    requires |line| > 0 && line[0] == '`' && !HasSpan(line) && Unescape(line) == out && !EndsWith(out, "\\")
    ensures Step(clock, [], line, fuel) == Done([], [Print(out, true)])
  {
    DiffersAt(line, RunPrefix, 0);
    DiffersAt(line, IncPrefix, 0);
    NoDirectiveFallsThrough(clock, line, fuel);
    FallbackCases(out);
  }

  /** The body of an escaped span: no backtick anywhere. */
  lemma EscapedBodyFree(name: string, t: string)
    requires SpanName(name) && '`' !in t
    ensures '`' !in "\\!" + name + t && '`' !in "!" + name + t
  {
    var m, m2 := "\\!" + name + t, "!" + name + t;
    assert forall i :: 0 <= i < |m| ==> m[i] == if i < 2 then "\\!"[i] else if i < 2 + |name| then name[i - 2] else t[i - 2 - |name|];
    assert forall i :: 0 <= i < |m2| ==> m2[i] == if i < 1 then '!' else if i < 1 + |name| then name[i - 1] else t[i - 1 - |name|];
  }

  /** A closing backtick with no backtick before it holds no escaped head:
      un-escaping leaves it alone. */
  lemma ClosedTailKept(t: string)
    requires '`' !in t
    ensures Unescape(t + ['`']) == t + ['`']
  {
    NotContainsBeforeLast(t, '`', "`\\!elapsed");
    NotContainsBeforeLast(t, '`', "`\\!now");
    NotContainsBeforeLast(t, '`', "`\\!today");
    ReplaceAbsent(t + ['`'], "`\\!elapsed", "`!elapsed");
    ReplaceAbsent(t + ['`'], "`\\!now", "`!now");
    ReplaceAbsent(t + ['`'], "`\\!today", "`!today");
  }

  /** An escaped span `` `\!name t` `` (any text `t` without a backtick) is
      never substituted: the backslash after the opening backtick is removed
      once and the rest is printed as it is, with a newline. */
  lemma EscapedSpanPrinted(clock: Clock, name: string, t: string, line: string, fuel: nat)
    requires SpanName(name) && '`' !in t
    requires line == ['`'] + ("\\!" + name + t) + ['`']
    ensures Step(clock, [], line, fuel) == Done([], [Print(['`'] + ("!" + name + t) + ['`'], true)])
  {
    var m, out := "\\!" + name + t, ['`'] + ("!" + name + t) + ['`'];
    EscapedBodyFree(name, t);
    Absent(m, "`!elapsed", 1);
    Absent(m, "`!now", 1);
    Absent(m, "`!today", 1);
    assert line == [] + ("`\\!" + name) + (t + ['`']);
    assert out == [] + ("`!" + name) + (t + ['`']);
    UnescapeHead([], name, t + ['`']);
    ClosedTailKept(t);
    assert out[|out| - 1] == '`';
    EscapedPrinted(clock, line, out, fuel);
  }

  /** An escaped span with nothing after the name. */
  lemma EscapedBare(clock: Clock, name: string, line: string, fuel: nat)
    requires SpanName(name) && line == ['`'] + ("\\!" + name) + ['`']
    ensures Step(clock, [], line, fuel) == Done([], [Print(['`'] + ("!" + name) + ['`'], true)])
  {
    assert "\\!" + name + [] == "\\!" + name && "!" + name + [] == "!" + name;
    EscapedSpanPrinted(clock, name, [], line, fuel);
  }

  /** The printed forms, spelled as literals. */
  lemma EscapedOutputs()
    ensures ['`'] + ("!" + "now") + ['`'] == "`!now`"
    ensures ['`'] + ("!" + "elapsed") + ['`'] == "`!elapsed`"
    ensures ['`'] + ("!" + "today" + ":UTC") + ['`'] == "`!today:UTC`"
  {
  }

  /** An escaped `now` token is printed literally, one backslash removed. */
  lemma EscapedNow(clock: Clock, line: string, fuel: nat)
    requires line == ['`'] + ("\\!" + "now") + ['`']
    ensures Step(clock, [], line, fuel) == Done([], [Print("`!now`", true)])
  {
    EscapedBare(clock, "now", line, fuel);
    EscapedOutputs();
  }

  /** An escaped `elapsed` token is printed literally. */
  lemma EscapedElapsed(clock: Clock, line: string, fuel: nat)
    requires line == ['`'] + ("\\!" + "elapsed") + ['`']
    ensures Step(clock, [], line, fuel) == Done([], [Print("`!elapsed`", true)])
  {
    assert line == ['`'] + ("\\!" + "elapsed" + []) + ['`'];
    EscapedSpanPrinted(clock, "elapsed", [], line, fuel);
    assert ['`'] + ("!" + "elapsed" + []) + ['`'] == "`!elapsed`";
  }

  /** An escaped `today` token with a zone is printed literally. */
  lemma EscapedToday(clock: Clock, line: string, fuel: nat)
    requires line == ['`'] + ("\\!" + "today" + ":UTC") + ['`']
    ensures Step(clock, [], line, fuel) == Done([], [Print("`!today:UTC`", true)])
  {
    EscapedSpanPrinted(clock, "today", ":UTC", line, fuel);
    EscapedOutputs();
  }

  // ---------------------------------------------------------------------
  // Malformed tokens and re-dispatch

  lemma MalformedElapsedFixed(clock: Clock, line: string)
    requires line == ['`'] + "!elapsedX"
    ensures HasSpan(line) && SpanPass(clock, line) == line
  {
    assert StartsWith(line, "`!elapsed");
    AbsentOpen("!elapsedX", "`!elapsed`", 9);
    ReplaceAbsent(line, "`!elapsed`", Duration.HumanDuration(clock.elapsed));
  }

  /** `` `!elapsedX `` never terminates: the token is not rewritten, so the
      `contains` test stays true on every pass. */
  lemma MalformedElapsedHangs(clock: Clock, line: string, fuel: nat)
    requires line == ['`'] + "!elapsedX"
    ensures Step(clock, [], line, fuel) == Hang
  {
    MalformedElapsedFixed(clock, line);
    FixedPointHangs(clock, line, fuel);
  }

  /** An unclosed `` `!now:zone `` is a fixed point of the span pass,
      whatever the zone: none of the four `now` replacements has a closing
      backtick to match. */
  lemma UnclosedNowGeneral(clock: Clock, zone: string, line: string)
    requires '`' !in zone
    requires line == ['`'] + ("!now:" + zone)
    ensures HasSpan(line) && SpanPass(clock, line) == line
  {
    var m := "!now:" + zone;
    assert '`' !in m by {
      assert forall i :: 0 <= i < 5 ==> m[i] != '`';
      assert forall i :: 5 <= i < |m| ==> m[i] == zone[i - 5];
    }
    assert line[2] == 'n';
    AbsentOpen(m, "`!elapsed", 2);
    assert StartsWith(line, "`!now");
    NeverInOpen(m, "`!now`");
    NeverInOpen(m, "`!now:local`");
    NeverInOpen(m, "`!now:x`");
    ReplaceAbsent(line, "`!now`", clock.now);
    ReplaceAbsent(line, "`!now:local`", clock.nowLocal);
    ReplaceAbsent(line, "`!now:x`", clock.nowX);
    assert line == Head(Now) + zone;
    UnclosedHeadUnchanged(clock, Now, zone);
  }

  lemma UnclosedNowFixed(clock: Clock, line: string)
    requires line == ['`'] + ("!now:" + "UTC")
    ensures HasSpan(line) && SpanPass(clock, line) == line
  {
    UnclosedNowGeneral(clock, "UTC", line);
  }

  /** An unclosed `` `!now:UTC `` never terminates either: the regex finds
      no closing backtick and the line is never rewritten. */
  lemma UnclosedNowHangs(clock: Clock, line: string, fuel: nat)
    requires line == ['`'] + ("!now:" + "UTC")
    ensures Step(clock, [], line, fuel) == Hang
  {
    UnclosedNowFixed(clock, line);
    FixedPointHangs(clock, line, fuel);
  }

  /** A span whose substitution yields a `!run:` line is run. */
  lemma Redispatched(clock: Clock, line: string, command: string)
    requires |line| > 0 && line[0] == '`' && HasSpan(line) && SpanPass(clock, line) == RunPrefix + command
    requires !EndsWith(command, "\\")
    ensures Step(clock, [], line, 1) == Done([], [Run(command)])
  {
    DiffersAt(line, RunPrefix, 0);
    DiffersAt(line, IncPrefix, 0);
    RunLine(clock, command, 0);
  }

  /** The loop checks the directive prefixes again after a substitution:
      a timestamp pattern that renders as `!run:date` is run as a command. */
  lemma SubstitutionIsDispatchedAgain(clock: Clock, line: string)
    requires line == ['`'] + ("!now:" + ("UTC" + ":" + "!run:date")) + ['`']
    requires clock.formatIn("UTC", "!run:date") == "!run:date"
    ensures Step(clock, [], line, 1) == Done([], [Run("date")])
  {
    RunDate();
    PatternRunsCommand(clock, "UTC", "!run:date", "date", line);
  }

  lemma RunDate()
    ensures RunPrefix + "date" == "!run:date" && !EndsWith("date", "\\")
  {
  }

  /** For any zone and pattern: when the timestamp renders as `!run:c`, the
      span line runs `c`. */
  lemma PatternRunsCommand(clock: Clock, zone: string, pattern: string, command: string, line: string)
    requires ':' !in zone && '`' !in zone && '`' !in pattern
    requires line == ['`'] + ("!now:" + (zone + ":" + pattern)) + ['`']
    requires clock.formatIn(zone, pattern) == RunPrefix + command && !EndsWith(command, "\\")
    ensures Step(clock, [], line, 1) == Done([], [Run(command)])
  {
    NowPatternPassResult(clock, zone, pattern, line);
    Redispatched(clock, line, command);
  }
}

=== FILE: wrappers.dfy ===
/** The optional-value datatype shared by every module of the model
    (Rust's `Option`). */
module Wrappers {

  datatype Option<+T> = None | Some(value: T)
}
